=== FILE: README.md ===
# gedankenscape audio editor — a verified model of its core

gedankenscape is a browser audio editor with a Python backend. The browser side
decodes a clip, edits it offline and writes the result back out as a 16-bit PCM
WAV file:

- reverse the clip;
- scale its volume;
- trim it to a selection;
- low-pass filter it;
- pan it.

It also keeps live playback effects (volume, cutoff, pan) with a "changed since
last commit" snapshot, and it draws a scrolling mel spectrogram. The backend
wraps the EnCodec neural codec. It turns a clip into per-level codebook index
lists, latent vectors and compression metrics, and it loads its model lazily.

This project models that core in Dafny and proves what the code promises.

| module | models |
|---|---|
| `AudioBuffers` | the Web Audio `AudioBuffer` as a class over a channel × frame `array2<real>`, with a value view `Pcm` |
| `WavEncoding` | `audioBufferToWav`: the 44-byte RIFF/WAVE header, the clamp and int16 quantisation of samples, and frame-major little-endian interleaving into a byte array |
| `AudioEffects` | the sample loops of `reverseAudio` and `applyVolume`, and the parameter clamps and stereo check of `applyLowPassFilter` and `applyPan` |
| `AudioTrim` | `trimAudio`: the sample-boundary arithmetic and the copy loop |
| `LiveEffects` | the `useLiveEffects` state object: the nodes, the current and original snapshots, the setters, `hasChanges`, `reset` and `commit`; `getCurrentValues` and `getOriginalValues` are plain reads of the two snapshots (`GetCurrentValues`, `GetOriginalValues`) |
| `TrimTool` | the trim panel: the selection clamps, marker dragging, the numeric inputs, the duration reset and the `handleTrim` flow |
| `MelSpectrogram` | `createMelFilterBank`, `applyMelFilterBank` and `normalizeMelData` |
| `TimeFormat` | `formatTime`, which is identical in `Spectrogram.jsx` and `Waveform.jsx` and is modelled once |
| `SpectrogramView` | the bounded frame history of `drawSpectrogram`, its bin stride, and click-to-seek |
| `Encodec` | `EncodecService`: lazy idempotent loading, input-shape normalisation, codebook extraction by number of dimensions (including the heuristic 4-d fallbacks), latent clean-up, metadata and metrics, and the tensor shapes `decode` builds |
| `JsMath`, `Wrappers` | JavaScript's `Math.max`/`min`/`floor`/`round` and truncation; `Option`/`Result` |

**Conventions.**

- Samples and times are `real`. Bytes are `Byte = 0..255`.
- JavaScript's 16- and 32-bit `DataView` writes wrap modulo 2^16 and 2^32. That wrap is written out.
- The `%` operator of JavaScript truncates towards zero, and `JsRem` models it that way.
- Operations that change state are methods on classes, proved equal to a specification function of the old state:
  - `AudioBuffer` is filled in place;
  - the WAV encoder writes into an `array<Byte>`;
  - `LiveEffects`, `TrimTool`, `History` and `EncodecService` update their fields.
- The specification functions carry the lemmas: round trips, involution, bounds and element-wise equalities.

**Three behaviours of the code worth knowing.**

- `setVolume` does not clamp the volume to [0, 2]. The raw value goes to both the gain node and the current snapshot.
- Re-running the node setup resets the node values, but not the current snapshot.
- In EnCodec's 4-d fallback the first axis of size 2..8 is taken as the codebook axis. The comment at backend/encodec_service.py:157 speaks of the axis of smallest size, but the loop after it takes the first axis in range.

## Model

| member | source | states |
|---|---|---|
| AudioBuffers.AudioBuffer.constructor | src/utils/audioEffects.js:60-64 | `createBuffer(channels, length, rate)` gives a fresh buffer of that shape and rate, all samples 0 |
| AudioBuffers.AudioBuffer.Value | src/utils/audioEffects.js:60-72 | the value view of a buffer is a well-formed PCM clip with the buffer's channel count, length and rate |
| WavEncoding.U16RoundTrip | src/utils/audioEffects.js:25-26 | reading back a little-endian `setUint16` gives the value modulo 2^16 |
| WavEncoding.I16RoundTrip | src/utils/audioEffects.js:38 | reading back a `setInt16` of any value in [-32768, 32767] gives that value |
| WavEncoding.U32RoundTrip | src/utils/audioEffects.js:21 | reading back a little-endian `setUint32` gives the value modulo 2^32 |
| WavEncoding.WavLength | src/utils/audioEffects.js:7-11 | the file is exactly `44 + length · channels · 2` bytes |
| WavEncoding.RiffChunkLayout | src/utils/audioEffects.js:20-22 | bytes 0..12 are "RIFF", the size `bufferSize − 8` and "WAVE" |
| WavEncoding.FmtChunkLayout | src/utils/audioEffects.js:23-30 | the fmt chunk is "fmt ", 16, format 1, channels, rate, byte rate `rate · channels · 2`, block align `channels · 2`, 16 bits |
| WavEncoding.HeaderChunks | src/utils/audioEffects.js:20-32 | the 44-byte header is the RIFF chunk, then the fmt chunk, then "data" and the data size |
| WavEncoding.HeaderSizeFields | src/utils/audioEffects.js:20-32 | any bytes starting with the header read back "RIFF", `44 + dataSize − 8`, "WAVE", "fmt ", "data" and `dataSize` at offsets 0, 4, 8, 12, 36 and 40 |
| WavEncoding.HeaderFormatFields | src/utils/audioEffects.js:24-30 | the same bytes read back the seven fmt fields at offsets 16..34, each wrapped to its width |
| WavEncoding.FmtFieldsLow | src/utils/audioEffects.js:24-27 | the fmt chunk at offset 12 reads back size 16, format 1, the channel count and the sample rate |
| WavEncoding.FmtFieldsHigh | src/utils/audioEffects.js:28-30 | the fmt chunk at offset 12 reads back byte rate `rate · channels · 2`, block align `channels · 2` and 16 bits per sample |
| WavEncoding.WavHeaderFields | src/utils/audioEffects.js:20-32 | every header field of an encoded clip reads back as written, with the RIFF size equal to the file length − 8 and the data size equal to the file length − 44 |
| WavEncoding.Pcm16Range | src/utils/audioEffects.js:37-38 | every written sample lies in [-32768, 32767]; samples ≥ 1 give 32767 and samples ≤ −1 give −32768 |
| WavEncoding.Pcm16Quantisation | src/utils/audioEffects.js:38 | inside [-1, 1] a sample is truncated towards zero after scaling by 32767 (non-negative) or 32768 (negative) |
| WavEncoding.Pcm16Monotonic | src/utils/audioEffects.js:37-38 | the clamp-and-quantise map never reverses the order of two samples |
| WavEncoding.InterleavedLength | src/utils/audioEffects.js:35-41 | interleaving `n` frames gives `n · channels` words |
| WavEncoding.InterleavedAt | src/utils/audioEffects.js:35-41 | word `i · channels + c` is the quantised sample of channel `c` at frame `i` (frame-major order) |
| WavEncoding.WavSampleAt | src/utils/audioEffects.js:34-41 | channel `c` of frame `i` reads back as its quantised sample at byte `44 + 2 · (i · channels + c)` |
| WavEncoding.WordAt | src/utils/audioEffects.js:38-39 | word `k` after the header reads back at byte `44 + 2k` |
| WavEncoding.LeWordsAppend | src/utils/audioEffects.js:38-39 | writing one more word appends its two little-endian bytes |
| WavEncoding.SetBytes | src/utils/audioEffects.js:14-18 | a byte-by-byte write puts the bytes at the offset and keeps everything before it |
| WavEncoding.WriteRiffChunk | src/utils/audioEffects.js:20-22 | the first 12 bytes of the view become the RIFF chunk |
| WavEncoding.WriteFmtChunk | src/utils/audioEffects.js:23-30 | bytes 12..36 become the fmt chunk and bytes 0..12 are kept |
| WavEncoding.WriteHeader | src/utils/audioEffects.js:20-32 | the first 44 bytes of the view become the header |
| WavEncoding.WriteFrame | src/utils/audioEffects.js:36-40 | the inner channel loop appends one frame's words and advances the offset by `2 · channels` |
| WavEncoding.AudioBufferToWav | src/utils/audioEffects.js:2-44 | a newly allocated byte array holding exactly the header followed by the interleaved quantised samples of the buffer |
| AudioEffects.Reversed | src/utils/audioEffects.js:60-72 | the reversed clip keeps the channel count, length and sample rate |
| AudioEffects.ReverseInvolution | src/utils/audioEffects.js:66-72 | reversing twice gives back the clip |
| AudioEffects.ReverseBuffer | src/utils/audioEffects.js:60-72 | a newly allocated buffer (so the input is untouched and not aliased) holds `in[c][len − 1 − i]` at `[c][i]`, equal to `Reversed` of the input |
| AudioEffects.ReverseAudio | src/utils/audioEffects.js:55-76 | the WAV bytes are those of the reversed input clip |
| AudioEffects.Scaled | src/utils/audioEffects.js:89-102 | the scaled clip keeps the channel count, length and sample rate |
| AudioEffects.VolumeSaturates | src/utils/audioEffects.js:95 | any volume ≥ 2 gives the same output as volume 2 |
| AudioEffects.VolumeNonPositiveSilences | src/utils/audioEffects.js:95 | any volume ≤ 0 gives an all-zero clip |
| AudioEffects.VolumeInRange | src/utils/audioEffects.js:95-101 | inside [0, 2] each output sample is input · volume; otherwise each sample stays between 0 and twice the input |
| AudioEffects.ScaleBuffer | src/utils/audioEffects.js:89-102 | a newly allocated buffer (so the input is untouched and not aliased) holds `in[c][i] · gain` with the gain clamped to [0, 2] |
| AudioEffects.ApplyVolume | src/utils/audioEffects.js:84-107 | the WAV bytes are those of the scaled input clip |
| AudioEffects.LowPassSettings | src/utils/audioEffects.js:130-133 | the cutoff sent to the filter is clamped to [20, 20000] and Q is 1 |
| AudioEffects.PanSetting | src/utils/audioEffects.js:157-171 | the operation fails iff the clip is not stereo; otherwise the pan is clamped to [-1, 1] |
| AudioTrim.Trimmed | src/utils/audioTrim.js:11-17 | the trimmed clip has `end − start` frames and the input's channel count and sample rate |
| AudioTrim.TrimmedAt | src/utils/audioTrim.js:19-25 | frame `i` of channel `c` of the result is input frame `start + i` |
| AudioTrim.TrimWhole | src/utils/audioTrim.js:9-25 | trimming from 0 to the length gives back the clip |
| AudioTrim.TrimWholeDuration | src/utils/audioTrim.js:9-11 | the times 0 and `length / rate` map to samples 0 and `length`, so trimming over the whole duration gives back the clip |
| AudioTrim.HalfSecondAt44100 | src/utils/audioTrim.js:9-11 | 0.0–0.5 s at 44100 Hz is samples 0..22050, a clip of 22050 frames |
| AudioTrim.TrimCompose | src/utils/audioTrim.js:19-25 | trimming a trimmed clip is one trim with the offsets added |
| AudioTrim.TrimBuffer | src/utils/audioTrim.js:13-25 | a newly allocated buffer (so the input is untouched and not aliased) holds `in[c][start + i]`, equal to `Trimmed` of the input |
| AudioTrim.TrimAudio | src/utils/audioTrim.js:1-30 | the WAV bytes are those of the input trimmed at `floor(start · rate)` and `floor(end · rate)` |
| LiveEffects.LiveEffects.constructor | src/hooks/useLiveEffects.js:4-19 | no nodes yet; both snapshots are volume 1, cutoff 20000, pan 0; no changes |
| LiveEffects.LiveEffects.Setup | src/hooks/useLiveEffects.js:27-46 | the nodes are created with the default values and the snapshots are kept |
| LiveEffects.LiveEffects.SetVolume | src/hooks/useLiveEffects.js:150-155 | with a gain node, the raw volume goes to the node and to the current snapshot; without one nothing changes; the other fields are untouched |
| LiveEffects.LiveEffects.SetFilter | src/hooks/useLiveEffects.js:157-162 | with a filter node, the clamped cutoff goes to the node and the raw one to the snapshot; without one nothing changes |
| LiveEffects.LiveEffects.SetPan | src/hooks/useLiveEffects.js:164-169 | with a panner, the clamped pan goes to the node and the raw one to the snapshot; without one nothing changes |
| LiveEffects.LiveEffects.Reset | src/hooks/useLiveEffects.js:189-193 | once the nodes exist the current snapshot equals the original, which is unchanged, and there are no changes |
| LiveEffects.LiveEffects.Commit | src/hooks/useLiveEffects.js:195-197 | the original snapshot becomes the previous current snapshot, and there are no changes |
| LiveEffects.LiveEffects.HasChangesIffDiffer | src/hooks/useLiveEffects.js:179-187 | `hasChanges()` holds iff the current snapshot differs from the original |
| LiveEffects.VolumeChangeExample | src/hooks/useLiveEffects.js:150-187 | after setup, `setVolume(1.5)` makes `hasChanges()` true and leaves the original volume at 1 |
| TrimTool.TrimBounds | src/components/AudioEditor/TrimTool.jsx:21-22 | for a non-negative duration `0 ≤ start ≤ end ≤ duration`, and an already valid selection is kept |
| TrimTool.CursorTime | src/components/AudioEditor/TrimTool.jsx:59-61 | the time under the cursor lies in [0, duration] and saturates at both edges; a negative waveform width (the panel narrower than its padding) gives time 0 |
| TrimTool.FractionOfDuration | src/components/AudioEditor/TrimTool.jsx:60-61 | a clamped cursor gives a progress in [0, 1] and a time in [0, duration] |
| TrimTool.DraggedStart | src/components/AudioEditor/TrimTool.jsx:64 | the start stays ≥ 0 and at least 0.1 s before the end, and an allowed time is taken as is |
| TrimTool.DraggedEnd | src/components/AudioEditor/TrimTool.jsx:66 | the end stays at least 0.1 s after the start and within the duration, and an allowed time is taken as is |
| TrimTool.StartInput | src/components/AudioEditor/TrimTool.jsx:85 | an unparsable start reads as 0 |
| TrimTool.EndInput | src/components/AudioEditor/TrimTool.jsx:100 | an unparsable or zero end reads as the duration |
| TrimTool.TrimTool.constructor | src/components/AudioEditor/TrimTool.jsx:6-8 | the selection starts as [0, duration] and no trim is running |
| TrimTool.TrimTool.OnDurationChange | src/components/AudioEditor/TrimTool.jsx:11-16 | a positive new duration resets the selection to [0, duration]; otherwise it is kept; the selection invariant holds afterwards in both cases |
| TrimTool.TrimTool.DragMarker | src/components/AudioEditor/TrimTool.jsx:51-68 | dragging moves only the chosen marker to its clamped time, and after an end drag `trimEnd ≥ trimStart + 0.1`; any non-zero waveform width is accepted |
| TrimTool.TrimTool.InputStart | src/components/AudioEditor/TrimTool.jsx:84-87 | the start input applies the start-marker clamp to the parsed value |
| TrimTool.TrimTool.InputEnd | src/components/AudioEditor/TrimTool.jsx:99-102 | the end input applies the end-marker clamp and keeps the end ≥ start + 0.1 |
| TrimTool.TrimTool.BeginTrim | src/components/AudioEditor/TrimTool.jsx:18-29 | a trim is requested iff there is audio, none is running and the clamped selection is at least 0.1 s; the request is the clamped bounds and sets `isTrimming` |
| TrimTool.TrimTool.FinishTrim | src/components/AudioEditor/TrimTool.jsx:30-40 | `isTrimming` ends false on success and on failure; `onTrimmed` runs only on success when given |
| MelSpectrogram.MelPointsSpan | src/utils/melSpectrogram.js:41-43 | the mel points start at `melMin`, end at `melMax` and are evenly spaced |
| MelSpectrogram.MelPoints | src/utils/melSpectrogram.js:40-43 | the loop pushes `nMelBins + 2` points, point `i` at `melMin + (melMax − melMin) · i / (nMelBins + 1)` |
| MelSpectrogram.WeightRange | src/utils/melSpectrogram.js:63-73 | every triangular weight lies in [0, 1] |
| MelSpectrogram.WeightShape | src/utils/melSpectrogram.js:63-73 | the weight is 1 at the centre of a non-empty right side, 0 outside [left, right) and below 1 on the rising side |
| MelSpectrogram.TriangularFilter | src/utils/melSpectrogram.js:52-73 | the two ramp loops fill exactly the triangular filter of `fftBins` weights, writing only inside [0, fftBins) |
| MelSpectrogram.MelFilterBank | src/utils/melSpectrogram.js:31-79 | the bank has `nMelBins` filters of `fftSize / 2` weights each |
| MelSpectrogram.CreateMelFilterBank | src/utils/melSpectrogram.js:31-79 | the loop builds exactly that bank from the hertz points of the mel points |
| MelSpectrogram.BankWeights | src/utils/melSpectrogram.js:51-76 | every weight of the bank lies in [0, 1] |
| MelSpectrogram.WeightedSumBounds | src/utils/melSpectrogram.js:95-99 | with weights in [0, 1] a partial sum over `n` bins lies in [0, n] |
| MelSpectrogram.ApplyMelFilterBank | src/utils/melSpectrogram.js:87-105 | one energy per filter, each the weighted sum `Σ data[j] / 255 · filter[j]` over the bins both have |
| MelSpectrogram.MelEnergyBounds | src/utils/melSpectrogram.js:95-101 | with weights in [0, 1] each energy is non-negative and at most the filter length |
| MelSpectrogram.MaxFrom0 | src/utils/melSpectrogram.js:116-119 | the running max starting at 0 is ≥ 0, bounds every entry, and is 0 or one of the entries |
| MelSpectrogram.NormalizeMelData | src/utils/melSpectrogram.js:112-128 | one byte per entry, each the rounded, clamped `x · scale` with `scale = 255 / max` or 1 |
| MelSpectrogram.NormalizedExtremes | src/utils/melSpectrogram.js:122-124 | an entry equal to a positive max gives 255 and a negative entry gives 0 |
| MelSpectrogram.NormalizedMonotonic | src/utils/melSpectrogram.js:124 | normalisation keeps the order of entries |
| TimeFormat.JsRem | src/components/Spectrogram.jsx:265 | JavaScript's `%` keeps the sign of the dividend and is smaller in size than the divisor |
| TimeFormat.DigitsRoundTrip | src/components/Spectrogram.jsx:266 | reading back the decimal digits of `n` gives `n` |
| TimeFormat.PadStart2 | src/components/Spectrogram.jsx:266 | a shorter string is left-padded with '0' to exactly two characters; a longer one is kept |
| TimeFormat.MinutesAndSeconds | src/components/Spectrogram.jsx:264-265 | for a positive time, minutes ≥ 0, seconds in 0..59 and `60 · mins + secs = floor(s)` |
| TimeFormat.FormatTimeFalsy | src/components/Spectrogram.jsx:263 | `undefined`, NaN and 0 give "0:00" |
| TimeFormat.LabelFields | src/components/Spectrogram.jsx:266 | a label of minutes and seconds below 60 reads back as those two numbers, around a colon |
| TimeFormat.FormatTimePositive | src/components/Waveform.jsx:109-114 | for a positive time the label is digits, ':' and two digits below 60, reading back `floor(s / 60)` and `floor(s)` in total |
| TimeFormat.FormatTimeNegative | src/components/Spectrogram.jsx:262-267 | a negative time keeps JavaScript's signs: −0.5 gives "-1:-1" |
| SpectrogramView.RecordedBounded | src/components/Spectrogram.jsx:124-131 | a history within the bound stays within it after a draw |
| SpectrogramView.RecordedOrder | src/components/Spectrogram.jsx:124-131 | while paused a non-empty history is kept; otherwise the frame is appended, and the oldest frame is dropped once the history is full |
| SpectrogramView.History.constructor | src/components/Spectrogram.jsx:98-99 | the history starts empty with a bound of 300 |
| SpectrogramView.History.Draw | src/components/Spectrogram.jsx:124-131 | the `push`/`shift` step gives `Recorded` of the old history and keeps the bound |
| SpectrogramView.BinStep | src/components/Spectrogram.jsx:148 | the stride is ≥ 1: 1 below 400 bins, otherwise `floor(bufferLength / 200)` |
| SpectrogramView.DrawnBins | src/components/Spectrogram.jsx:150 | the bin loop visits bins `0, step, 2·step, …` below the frame length and stops after the last |
| SpectrogramView.SeekTime | src/components/Spectrogram.jsx:222-231 | no seek without audio, before ready or for zero duration; otherwise the time lies in [0, duration] for a click inside the canvas, with 0 and the duration at its edges |
| Encodec.EncodecService.constructor | backend/encodec_service.py:16-21 | the name is stored, the device is "cuda" iff CUDA is available, and nothing is loaded |
| Encodec.EncodecService.IsLoaded | backend/encodec_service.py:377-379 | when loaded, both the processor and the model are present |
| Encodec.EncodecService.LoadModel | backend/encodec_service.py:23-45 | once loaded it returns at once and changes nothing; otherwise it succeeds iff both loads do, and the processor is kept when only the model fails |
| Encodec.EncodecService.Encode | backend/encodec_service.py:47-330 | it loads first when needed, with the same effect on processor and model as `LoadModel`; with the model loaded the result is `EncodeOutput`, otherwise the load error |
| Encodec.EncodecService.Decode | backend/encodec_service.py:332-375 | it loads first when needed, with the same effect on processor and model as `LoadModel`; ragged index lists fail, otherwise the decoder's output is returned |
| Encodec.NormalizeAudio | backend/encodec_service.py:64-72 | (1, N) is flattened, 1-d is kept, any other array with a non-empty first axis (including a unit first axis of a ≥ 3-d array) becomes its first sub-array, an empty first axis flattens, and a 0-d array raises |
| Encodec.CodebookAxis | backend/encodec_service.py:159-164 | the first axis whose size lies in 2..8, or none |
| Encodec.Codes4dLevels | backend/encodec_service.py:140-187 | a unit first axis gives one level per second-axis entry, a unit second axis one per first-axis entry; otherwise the fallback, which can only fail by dividing by zero |
| Encodec.Codes4dUnitFirstAt | backend/encodec_service.py:139-146 | a unit first axis (`codes[0]`): entry `k` of level `l` is `c0[0, l, k]` |
| Encodec.Codes4dUnitSecondAt | backend/encodec_service.py:147-154 | a unit second axis (`codes[:, 0, :]`): entry `k` of level `l` is `c0[l, 0, k]` |
| Encodec.AmbiguousLevels | backend/encodec_service.py:156-187 | the fallback fails iff no axis fits and there are no frames; with a codebook axis it yields that axis's size in levels |
| Encodec.AmbiguousRowsAt | backend/encodec_service.py:170-171 | codebook axis 0: entry `j · f + k` of level `l` is `codes[l, j, k]` |
| Encodec.AmbiguousStridedAt | backend/encodec_service.py:172-173 | codebook axis 1: entry `i · f + k` of level `l` is `codes[i, l, k]` |
| Encodec.AmbiguousColumnsAt | backend/encodec_service.py:174-175 | codebook axis 2: entry `i · b + j` of level `l` is `codes[i, j, l]` |
| Encodec.StridedLevelsAt | backend/encodec_service.py:172-173 | level `l` of the strided read is the stride-`b·f` view at offset `l · f` |
| Encodec.StridedAt | backend/encodec_service.py:173 | element `i · width + j` of a strided view is `data[i · stride + offset + j]` |
| Encodec.RowsAt | backend/encodec_service.py:193-196 | element `j` of row `i` is `data[i · width + j]` |
| Encodec.ColumnAt | backend/encodec_service.py:207-210 | element `r` of column `l` is `data[r · cols + l]` |
| Encodec.ColumnsAt | backend/encodec_service.py:207-210 | level `l` of the transposed read is column `l` |
| Encodec.CodebookIndices | backend/encodec_service.py:119-217 | the append loops build exactly `CodebookLevels` of the codes, including its errors |
| Encodec.Codes4dIndices | backend/encodec_service.py:140-187 | the 4-d loops build exactly `Codes4dLevels` |
| Encodec.AmbiguousIndices | backend/encodec_service.py:156-187 | the fallback loops build exactly `AmbiguousLevels` |
| Encodec.AppendRows | backend/encodec_service.py:193-196 | the row loop appends the rows in order |
| Encodec.AppendColumns | backend/encodec_service.py:207-210 | the column loop appends the columns in order |
| Encodec.AppendStrided | backend/encodec_service.py:169-176 | the axis-1 loop appends the strided levels in order |
| Encodec.CodebookLevels3d | backend/encodec_service.py:188-196 | 3-d codes: one level per codebook row of `codes[0]`, each of `frames` entries, entry `f` of level `l` being `codes[0, l, f]` |
| Encodec.CodebookLevels2dRows | backend/encodec_service.py:199-204 | 2-d codes with fewer rows than columns: level `l` is row `l` |
| Encodec.CodebookLevels2dColumns | backend/encodec_service.py:205-210 | 2-d codes otherwise: level `l` is column `l`, the transpose |
| Encodec.CodebookLevelsUnitChannel | backend/encodec_service.py:132-147 | 4-d codes with one channel give the same levels as the 3-d codes `codes[0]` |
| Encodec.RowsTotal | backend/encodec_service.py:193-196 | `n` rows of `width` hold `n · width` indices |
| Encodec.ColumnsTotal | backend/encodec_service.py:207-210 | `n` columns of `rows` hold `n · rows` indices |
| Encodec.CodebookLevelsTotal | backend/encodec_service.py:188-290 | for 2-d and 3-d codes the compressed size is the product of the last two axes |
| Encodec.Measure | backend/encodec_service.py:283-292 | a zero sample rate raises; otherwise duration · rate = frames, original size `2 · frames`, compressed size the index count, ratio · original = compressed (0 without frames), bits/s · duration = 8 · compressed (0 without duration) |
| Encodec.EmbeddingRows | backend/encodec_service.py:221-262 | no embeddings, or an extraction that raises, give `[[]]`; 2-d embeddings give one row per frame |
| Encodec.EmbeddingRows2dAt | backend/encodec_service.py:241-243 | 2-d embeddings: exactly `e.shape[0]` latent rows, and row `i` holds `e[i, j]` at position `j` |
| Encodec.EmbeddingRows3dAt | backend/encodec_service.py:238-240 | 3-d embeddings: exactly `e.shape[1]` latent rows, and row `i` holds `e[0, i, j]` at position `j` |
| Encodec.EmbeddingRows4dAt | backend/encodec_service.py:234-237 | 4-d embeddings: exactly `e.shape[2]` latent rows, and row `i` holds `e[0, 0, i, j]` at position `j` |
| Encodec.Floats | backend/encodec_service.py:276 | `float()` of each non-None item fails (with TypeError) iff some item is a list; on success the result holds exactly the numbers of the row |
| Encodec.FloatsAppend | backend/encodec_service.py:276 | over a concatenation it succeeds iff it succeeds on both parts, and the numbers concatenate in order |
| Encodec.CleanRows | backend/encodec_service.py:270-280 | the clean-up gives one row per latent |
| Encodec.CleanRowsItems | backend/encodec_service.py:270-280 | row `i` of the clean-up is `CleanItem` of latent `i`; a failure is that of the first latent that fails |
| Encodec.CleanLatentRows | backend/encodec_service.py:270-281 | the clean-up loop builds exactly `CleanRows`, stopping at the first error |
| Encodec.CleanRowsFailure | backend/encodec_service.py:270-280 | an error in a prefix is the error of the whole clean-up |
| Encodec.CleanRowsOfFloats | backend/encodec_service.py:302-309 | cleaning rows of floats gives them back |
| Encodec.FloatsOfNums | backend/encodec_service.py:306 | `float()` over a list of numbers gives those numbers |
| Encodec.LatentsNormalForm | backend/encodec_service.py:264-309 | the first clean-up never gives an empty list, and the final pass leaves its result unchanged |
| Encodec.CleanItemExamples | backend/encodec_service.py:272-280 | on four sample inputs: None becomes `[]`, a scalar `[x]`, Nones inside a row are dropped, and a nested list raises TypeError |
| Encodec.EncodeOutputShape | backend/encodec_service.py:283-326 | on success: frames = length of the normalised audio, codebooks = number of index lists, compressed size = index count, latents non-empty; a zero sample rate fails |
| Encodec.DecodeInput | backend/encodec_service.py:347-358 | ragged lists fail; otherwise the codes tensor is `[1, levels, frames]` and the padding mask has `frames` entries, 0 for no levels |
| JsMath.Clamp | src/utils/audioEffects.js:95 | `max(lo, min(hi, x))` lies in [lo, hi], keeps values inside it and saturates at both ends |
| JsMath.Trunc | src/utils/audioEffects.js:38 | truncation rounds towards zero: for x ≥ 0 the result is the largest integer not above x, for x < 0 the smallest integer not below x, so it is never further than 1 from x and never further from 0 |

## Left out

- Fetching, decoding and exporting are left out: `fetch`, `decodeAudioData`, `Blob` and `URL.createObjectURL` in audioEffects.js and audioTrim.js. The decoded buffer is an input, and the WAV bytes are the result.
- The biquad low-pass and the stereo panner are rendered by the browser's `OfflineAudioContext`. Only the clamps and the stereo check are modelled.
- `hzToMel` and `melToHz` use `log10` and `pow`. They are parameters of the filter-bank functions and are not interpreted.
- Floating point is not modelled:
  - samples, times and weights are exact reals;
  - NaN and ±Infinity inputs are not modelled, except the NaN case of `formatTime`;
  - `Float32Array` rounding of weights and energies is not modelled.
- AudioBuffers.AudioBuffer.constructor: accepts a channel count or a length of 0, which the browser's `createBuffer` rejects with an exception; the model gives an empty buffer instead.
- AudioTrim.TrimAudio: when `floor(start · rate) == floor(end · rate)` the browser's `createBuffer` throws; the model returns a 44-byte WAV file with an empty data chunk (`WavEncoding.WavLength`). `ReverseAudio` and `ApplyVolume` likewise return a 44-byte file for an empty clip.
- MelSpectrogram.CreateMelFilterBank: requires an even `fftSize` and a positive `sampleRate`. An odd `fftSize` gives a fractional `fftSize / 2`, and `new Float32Array` throws for it. A `sampleRate` of 0 throws nothing in JavaScript: `nyquist` is 0, every bin is `Math.floor(NaN)`, the ramp loops never run and every filter is all zeros; that NaN path is not modelled. A negative rate is not representable, since `sampleRate` is a `nat`.
- AudioTrim.TrimAudio: requires `0 ≤ floor(start · rate) ≤ floor(end · rate) ≤ length`. The JavaScript reads `undefined` past the end of the channel and stores NaN, and that case is not modelled.
- The audio-routing interception and the WaveSurfer wiring in useLiveEffects.js are event and timing plumbing. Its `handlePause` source-disconnect branch never runs as written. Only the node setup's effect on the node values is modelled.
- The nodes of `useLiveEffects` are modelled by the value each one holds, as an `Option<real>`.
- SpectrogramView.SeekTime: requires a positive canvas width. A zero-width canvas gives an infinite or NaN progress in JavaScript, and that case is not modelled.
- TrimTool.CursorTime: a waveform width of exactly 0 divides by zero and gives NaN in JavaScript. That case is excluded by the requires.
- TrimTool.TrimTool.DragMarker: requires a non-zero waveform width, for the same reason as `CursorTime`.
- The early return of `handleTrimMarkerDrag` when a ref is missing is left out. The pixel geometry is taken as the cursor offset and the width.
- `alert` and `console.error` are left out.
- The React rendering of the trim, spectrogram and waveform components is left out, as are canvas drawing and animation frames. The UI-only components and the tool wrappers are left out too.
- `trimAudio`'s own copy of `audioBufferToWav` is identical to the one in audioEffects.js, and it is modelled once, by `WavEncoding.AudioBufferToWav`. `formatTime` in Waveform.jsx is likewise the same function as in Spectrogram.jsx.
- The EnCodec model and processor are parameters, and so are whether they load and what they return. This covers `from_pretrained`, moving tensors to the device, `torch.no_grad`, the encoder call and the chain of fallbacks for finding embeddings.
- Encodec.EncodecService.LoadModel: when `from_pretrained` succeeds but `.to(device)` or `.eval()` raises, the source has already assigned `self.model`, whereas the model keeps the old `model`. The difference is not observable: `_is_loaded` stays false and the next load assigns `self.model` again.
- Encodec.DecodeInput: `torch.tensor(..., dtype=torch.long)` raises for an index outside the int64 range; the model's indices are unbounded integers and that failure is not modelled.
- Encodec.EncodecService.Decode: takes the decoder's output as a parameter. It models only the load, the ragged-list `ValueError` and the shapes of the codes tensor and the padding mask. The optional `scales` from the metadata are not modelled.
- Resampling to the model's rate is left out, and so is the exact dtype `tolist()` produces. Logging is left out.
- The backend's FastAPI server, the pydantic schemas and the HTTP test script are left out.
- Encodec.EmbeddingRows: the rows of the reshape fallback (1-d and more than 4-d embeddings) are modelled but not stated by any contract; the 2-d, 3-d and 4-d rows are stated element by element, with their exact count, by `EmbeddingRows2dAt`, `EmbeddingRows3dAt` and `EmbeddingRows4dAt`. Any embedding shape whose first index raises gives `[[]]`.

=== FILE: AudioBuffers.dfy ===
/**
 * The decoded PCM buffer (a Web Audio `AudioBuffer`) that every offline
 * transform reads and allocates: one row of samples per channel, all rows of
 * the same length.  `Pcm` is its value; `AudioBuffer` is the mutable buffer
 * that `createBuffer` allocates and the transforms fill in place.
 */
module AudioBuffers {

  /** The contents of a buffer: `channels[c][i]` is sample `i` of channel `c`. */
  datatype Pcm = Pcm(channels: seq<seq<real>>, length: nat, sampleRate: nat)
  {
    function NumberOfChannels(): nat { |channels| }

    /** Every channel holds exactly `length` samples. */
    predicate Valid() {
      forall c :: 0 <= c < |channels| ==> |channels[c]| == length
    }
  }

  /** A buffer whose channel data may be written sample by sample. */
  class AudioBuffer {
    const sampleRate: nat
    /** `data[c, i]` is sample `i` of channel `c`. */
    const data: array2<real>

    function NumberOfChannels(): nat { data.Length0 }

    function Length(): nat { data.Length1 }

    /** The samples the buffer currently holds. */
    function Value(): (p: Pcm)
      reads data
      ensures p.Valid() && p.NumberOfChannels() == data.Length0 && p.length == data.Length1
      ensures p.sampleRate == sampleRate
    {
      Pcm(seq(data.Length0, c requires 0 <= c < data.Length0 reads data =>
                seq(data.Length1, i requires 0 <= i < data.Length1 reads data => data[c, i])),
          data.Length1, sampleRate)
    }

    /** `createBuffer(numberOfChannels, length, sampleRate)`: a silent buffer. */
    constructor (numberOfChannels: nat, length: nat, sampleRate: nat)
      ensures this.sampleRate == sampleRate && fresh(data)
      ensures data.Length0 == numberOfChannels && data.Length1 == length
      ensures forall c, i :: 0 <= c < numberOfChannels && 0 <= i < length ==> data[c, i] == 0.0
    {
      this.sampleRate := sampleRate;
      data := new real[numberOfChannels, length]((c, i) => 0.0);
    }
  }
}

=== FILE: AudioEffects.dfy ===
/**
 * The offline transforms of `audioEffects.js`.  `reverseAudio` and
 * `applyVolume` copy or scale every sample of the decoded buffer into a
 * freshly created buffer, which is then encoded as WAV; the decoded buffer
 * is only read (no method here may modify it).  For the low-pass filter and
 * the stereo pan only the parameter handling is modelled: the rendering is
 * done by the platform.
 */
module AudioEffects {
  import opened JsMath
  import opened Wrappers
  import opened AudioBuffers
  import opened WavEncoding

  /** The buffer played backwards, channel by channel. */
  function Reversed(p: Pcm): (r: Pcm)
    requires p.Valid()
    ensures r.Valid() && r.NumberOfChannels() == p.NumberOfChannels()
    ensures r.length == p.length && r.sampleRate == p.sampleRate
  {
    Pcm(seq(|p.channels|, c requires 0 <= c < |p.channels| =>
          seq(p.length, i requires 0 <= i < p.length => p.channels[c][p.length - 1 - i])),
        p.length, p.sampleRate)
  }

  /** `Math.max(0, Math.min(2, volume))`. */
  function Gain(volume: real): real
  {
    Clamp(volume, 0.0, 2.0)
  }

  /** Every sample multiplied by `gain`. */
  function Scaled(p: Pcm, gain: real): (r: Pcm)
    requires p.Valid()
    ensures r.Valid() && r.NumberOfChannels() == p.NumberOfChannels()
    ensures r.length == p.length && r.sampleRate == p.sampleRate
  {
    Pcm(seq(|p.channels|, c requires 0 <= c < |p.channels| =>
          seq(p.length, i requires 0 <= i < p.length => p.channels[c][i] * gain)),
        p.length, p.sampleRate)
  }

  /** A buffer of the same shape in which every sample is zero. */
  predicate Silent(p: Pcm)
  {
    forall c, i :: 0 <= c < |p.channels| && 0 <= i < |p.channels[c]| ==> p.channels[c][i] == 0.0
  }

  /** Reversing twice gives back the original buffer. */
  lemma {:induction false} ReverseInvolution(p: Pcm)
    requires p.Valid()
    ensures Reversed(Reversed(p)) == p
  {
    var r := Reversed(Reversed(p));
    assert |r.channels| == |p.channels|;
    forall c | 0 <= c < |p.channels|
      ensures r.channels[c] == p.channels[c]
    {
      forall i | 0 <= i < p.length
        ensures r.channels[c][i] == p.channels[c][i]
      {
        assert r.channels[c][i] == Reversed(p).channels[c][p.length - 1 - i];
      }
    }
  }

  /** The gain is clamped to [0, 2]: any volume of 2 or more acts as 2. */
  lemma VolumeSaturates(p: Pcm, volume: real)
    requires p.Valid() && volume >= 2.0
    ensures Scaled(p, Gain(volume)) == Scaled(p, Gain(2.0))
  {
  }

  /** A volume of 0 or less silences the buffer. */
  lemma VolumeNonPositiveSilences(p: Pcm, volume: real)
    requires p.Valid() && volume <= 0.0
    ensures Silent(Scaled(p, Gain(volume)))
  {
  }

  /** A volume inside [0, 2] is applied as it is, and never amplifies by more than 2. */
  lemma VolumeInRange(p: Pcm, volume: real, c: nat, i: nat)
    requires p.Valid() && c < p.NumberOfChannels() && i < p.length
    ensures 0.0 <= volume <= 2.0 ==> Scaled(p, Gain(volume)).channels[c][i] == p.channels[c][i] * volume
    ensures var x, y := p.channels[c][i], Scaled(p, Gain(volume)).channels[c][i];
      (x >= 0.0 ==> 0.0 <= y <= 2.0 * x) && (x < 0.0 ==> 2.0 * x <= y <= 0.0)
  {
  }

  /** Fills a new buffer with the samples of `audioBuffer` in reverse order. */
  method ReverseBuffer(audioBuffer: AudioBuffer) returns (reversedBuffer: AudioBuffer)
    ensures fresh(reversedBuffer) && fresh(reversedBuffer.data)
    ensures reversedBuffer.Value() == Reversed(audioBuffer.Value())
  {
    var numberOfChannels, length := audioBuffer.NumberOfChannels(), audioBuffer.Length();
    reversedBuffer := new AudioBuffer(numberOfChannels, length, audioBuffer.sampleRate);
    for channel := 0 to numberOfChannels
      invariant forall c, i :: 0 <= c < channel && 0 <= i < length ==>
        reversedBuffer.data[c, i] == audioBuffer.data[c, length - 1 - i]
    {
      for i := 0 to length
        invariant forall c, j :: 0 <= c < channel && 0 <= j < length ==>
          reversedBuffer.data[c, j] == audioBuffer.data[c, length - 1 - j]
        invariant forall j :: 0 <= j < i ==>
          reversedBuffer.data[channel, j] == audioBuffer.data[channel, length - 1 - j]
      {
        reversedBuffer.data[channel, i] := audioBuffer.data[channel, length - 1 - i];
      }
    }
    ghost var r, p := reversedBuffer.Value(), Reversed(audioBuffer.Value());
    forall c | 0 <= c < numberOfChannels ensures r.channels[c] == p.channels[c] {
    }
  }

  /** `reverseAudio` on an already decoded buffer: the WAV file of the reversed samples. */
  method ReverseAudio(audioBuffer: AudioBuffer) returns (wav: array<Byte>)
    ensures fresh(wav) && wav[..] == WavBytes(Reversed(audioBuffer.Value()))
  {
    var reversedBuffer := ReverseBuffer(audioBuffer);
    wav := AudioBufferToWav(reversedBuffer);
  }

  /** Fills a new buffer with the samples of `audioBuffer` scaled by the clamped volume. */
  method ScaleBuffer(audioBuffer: AudioBuffer, volume: real) returns (processedBuffer: AudioBuffer)
    ensures fresh(processedBuffer) && fresh(processedBuffer.data)
    ensures processedBuffer.Value() == Scaled(audioBuffer.Value(), Gain(volume))
  {
    var numberOfChannels, length := audioBuffer.NumberOfChannels(), audioBuffer.Length();
    processedBuffer := new AudioBuffer(numberOfChannels, length, audioBuffer.sampleRate);
    var gain := Max(0.0, Min(2.0, volume));
    for channel := 0 to numberOfChannels
      invariant forall c, i :: 0 <= c < channel && 0 <= i < length ==>
        processedBuffer.data[c, i] == audioBuffer.data[c, i] * gain
    {
      for i := 0 to length
        invariant forall c, j :: 0 <= c < channel && 0 <= j < length ==>
          processedBuffer.data[c, j] == audioBuffer.data[c, j] * gain
        invariant forall j :: 0 <= j < i ==>
          processedBuffer.data[channel, j] == audioBuffer.data[channel, j] * gain
      {
        processedBuffer.data[channel, i] := audioBuffer.data[channel, i] * gain;
      }
    }
    assert gain == Gain(volume);
    ghost var r, p := processedBuffer.Value(), Scaled(audioBuffer.Value(), Gain(volume));
    forall c | 0 <= c < numberOfChannels ensures r.channels[c] == p.channels[c] {
      forall i | 0 <= i < length ensures r.channels[c][i] == p.channels[c][i] {
        assert p.channels[c][i] == audioBuffer.Value().channels[c][i] * gain;
      }
    }
  }

  /** `applyVolume` on an already decoded buffer: the WAV file of the scaled samples. */
  method ApplyVolume(audioBuffer: AudioBuffer, volume: real) returns (wav: array<Byte>)
    ensures fresh(wav) && wav[..] == WavBytes(Scaled(audioBuffer.Value(), Gain(volume)))
  {
    var processedBuffer := ScaleBuffer(audioBuffer, volume);
    wav := AudioBufferToWav(processedBuffer);
  }

  /** The biquad the offline low-pass render is given. */
  datatype Biquad = LowPass(frequency: real, q: real)

  /** `applyLowPassFilter`: cutoff clamped to [20, 20000] Hz, Q fixed at 1. */
  function LowPassSettings(cutoffFrequency: real): (r: Biquad)
    ensures 20.0 <= r.frequency <= 20000.0 && r.q == 1.0
    ensures 20.0 <= cutoffFrequency <= 20000.0 ==> r.frequency == cutoffFrequency
    ensures cutoffFrequency < 20.0 ==> r.frequency == 20.0
    ensures cutoffFrequency > 20000.0 ==> r.frequency == 20000.0
  {
    LowPass(Max(20.0, Min(20000.0, cutoffFrequency)), 1.0)
  }

  datatype EffectError = PanNeedsStereo

  /**
   * `applyPan`: fails unless the buffer has exactly two channels; otherwise
   * the pan given to the stereo panner, clamped to [-1, 1].
   */
  function PanSetting(numberOfChannels: nat, panValue: real): (r: Result<real, EffectError>)
    ensures r.Err? <==> numberOfChannels != 2
    ensures r.Ok? ==> -1.0 <= r.value <= 1.0
    ensures r.Ok? && -1.0 <= panValue <= 1.0 ==> r.value == panValue
    ensures r.Ok? && panValue < -1.0 ==> r.value == -1.0
    ensures r.Ok? && panValue > 1.0 ==> r.value == 1.0
  {
    if numberOfChannels != 2 then Err(PanNeedsStereo)
    else Ok(Max(-1.0, Min(1.0, panValue)))
  }
}

=== FILE: AudioTrim.dfy ===
/**
 * `trimAudio` of `audioTrim.js`: the selection in seconds becomes a range of
 * sample frames, which are copied channel by channel into a new buffer and
 * encoded as WAV (by the same encoder as the other offline transforms).
 */
module AudioTrim {
  import opened JsMath
  import opened AudioBuffers
  import opened WavEncoding

  /** The frame a time in seconds starts at: `Math.floor(time * sampleRate)`. */
  function SampleIndex(time: real, sampleRate: nat): int
  {
    Floor(time * sampleRate as real)
  }

  /** Frames `startSample .. endSample - 1` of every channel. */
  function Trimmed(p: Pcm, startSample: nat, endSample: nat): (r: Pcm)
    requires p.Valid() && startSample <= endSample <= p.length
    ensures r.Valid() && r.NumberOfChannels() == p.NumberOfChannels()
    ensures r.length == endSample - startSample && r.sampleRate == p.sampleRate
  {
    Pcm(seq(|p.channels|, c requires 0 <= c < |p.channels| => p.channels[c][startSample..endSample]),
        endSample - startSample, p.sampleRate)
  }

  /** The copy loop reads the samples of the selected range and nothing else. */
  lemma TrimmedAt(p: Pcm, startSample: nat, endSample: nat, c: nat, i: nat)
    requires p.Valid() && startSample <= endSample <= p.length
    requires c < p.NumberOfChannels() && i < endSample - startSample
    ensures Trimmed(p, startSample, endSample).channels[c][i] == p.channels[c][startSample + i]
  {
  }

  /** Selecting all frames gives back the buffer. */
  lemma TrimWhole(p: Pcm)
    requires p.Valid()
    ensures Trimmed(p, 0, p.length) == p
  {
    var r := Trimmed(p, 0, p.length);
    forall c | 0 <= c < |p.channels| ensures r.channels[c] == p.channels[c] {
      assert p.channels[c][0..p.length] == p.channels[c];
    }
  }

  /** The selection `[0, length / sampleRate]` seconds covers every frame. */
  lemma {:induction false} TrimWholeDuration(p: Pcm)
    requires p.Valid() && p.sampleRate > 0
    ensures SampleIndex(0.0, p.sampleRate) == 0
    ensures SampleIndex(p.length as real / p.sampleRate as real, p.sampleRate) == p.length
    ensures Trimmed(p, 0, p.length) == p
  {
    var rate := p.sampleRate as real;
    assert (p.length as real / rate) * rate == p.length as real;
    TrimWhole(p);
  }

  /** Half a second at 44100 Hz is 22050 frames. */
  lemma HalfSecondAt44100(p: Pcm)
    requires p.Valid() && p.sampleRate == 44100 && p.length >= 22050
    ensures SampleIndex(0.0, 44100) == 0 && SampleIndex(0.5, 44100) == 22050
    ensures Trimmed(p, 0, 22050).length == 22050
  {
  }

  /** Trimming a trimmed buffer is one trim with the offsets added. */
  lemma {:induction false} TrimCompose(p: Pcm, s1: nat, e1: nat, s2: nat, e2: nat)
    requires p.Valid() && s1 <= e1 <= p.length && s2 <= e2 <= e1 - s1
    ensures Trimmed(Trimmed(p, s1, e1), s2, e2) == Trimmed(p, s1 + s2, s1 + e2)
  {
    var a, b := Trimmed(Trimmed(p, s1, e1), s2, e2), Trimmed(p, s1 + s2, s1 + e2);
    forall c | 0 <= c < |p.channels| ensures a.channels[c] == b.channels[c] {
      assert a.channels[c] == p.channels[c][s1..e1][s2..e2];
    }
  }

  /**
   * The copy loop: a new buffer of `endSample - startSample` frames with the
   * same channel count and rate, filled from the selected range.
   */
  method TrimBuffer(audioBuffer: AudioBuffer, startSample: nat, endSample: nat)
    returns (trimmedBuffer: AudioBuffer)
    requires startSample <= endSample <= audioBuffer.Length()
    ensures fresh(trimmedBuffer) && fresh(trimmedBuffer.data)
    ensures trimmedBuffer.Value() == Trimmed(audioBuffer.Value(), startSample, endSample)
  {
    var length := endSample - startSample;
    var numberOfChannels := audioBuffer.NumberOfChannels();
    trimmedBuffer := new AudioBuffer(numberOfChannels, length, audioBuffer.sampleRate);
    for channel := 0 to numberOfChannels
      invariant forall c, i :: 0 <= c < channel && 0 <= i < length ==>
        trimmedBuffer.data[c, i] == audioBuffer.data[c, startSample + i]
    {
      for i := 0 to length
        invariant forall c, j :: 0 <= c < channel && 0 <= j < length ==>
          trimmedBuffer.data[c, j] == audioBuffer.data[c, startSample + j]
        invariant forall j :: 0 <= j < i ==>
          trimmedBuffer.data[channel, j] == audioBuffer.data[channel, startSample + j]
      {
        trimmedBuffer.data[channel, i] := audioBuffer.data[channel, startSample + i];
      }
    }
    ghost var r, p := trimmedBuffer.Value(), Trimmed(audioBuffer.Value(), startSample, endSample);
    forall c | 0 <= c < numberOfChannels ensures r.channels[c] == p.channels[c] {
      forall i | 0 <= i < length ensures r.channels[c][i] == p.channels[c][i] {
        assert p.channels[c][i] == audioBuffer.Value().channels[c][startSample + i];
      }
    }
  }

  /**
   * `trimAudio` on an already decoded buffer: the WAV file of the frames
   * between `startTime` and `endTime`.  The selection must lie inside the
   * buffer; the source does not check it.
   */
  method TrimAudio(audioBuffer: AudioBuffer, startTime: real, endTime: real) returns (wav: array<Byte>)
    requires 0 <= SampleIndex(startTime, audioBuffer.sampleRate)
    requires SampleIndex(startTime, audioBuffer.sampleRate) <= SampleIndex(endTime, audioBuffer.sampleRate) <= audioBuffer.Length()
    ensures fresh(wav)
    ensures wav[..] == WavBytes(Trimmed(audioBuffer.Value(),
                                        SampleIndex(startTime, audioBuffer.sampleRate),
                                        SampleIndex(endTime, audioBuffer.sampleRate)))
  {
    var sampleRate := audioBuffer.sampleRate;
    var startSample := SampleIndex(startTime, sampleRate);
    var endSample := SampleIndex(endTime, sampleRate);
    var trimmedBuffer := TrimBuffer(audioBuffer, startSample, endSample);
    wav := AudioBufferToWav(trimmedBuffer);
  }
}

=== FILE: Encodec.dfy ===
/**
 * The deterministic part of the EnCodec service: lazy, idempotent loading of
 * the processor and model, the normalisation of the input audio, the
 * extraction of one index list per codebook from the code tensor, the
 * clean-up of the latent vectors and the compression metrics.  What the
 * processor and the model compute is an input here.
 */
module Encodec {
  import opened Wrappers

  // ---------------------------------------------------------------- arrays

  /** The number of elements of an array of this shape. */
  function Product(shape: seq<nat>): nat
  {
    if |shape| == 0 then 1 else shape[0] * Product(shape[1..])
  }

  /** A numpy array: its shape and its elements in row-major order. */
  datatype NdArray<T> = NdArray(shape: seq<nat>, data: seq<T>)
  {
    predicate Valid() { |data| == Product(shape) }
    function Ndim(): nat { |shape| }
  }

  lemma RowBound(i: nat, n: nat, width: nat)
    requires i < n
    ensures i * width + width <= n * width
  {
    assert (i + 1) * width <= n * width;
  }

  lemma CellBound(i: nat, j: nat, n: nat, width: nat)
    requires i < n && j < width
    ensures i * width + j < n * width
  {
    RowBound(i, n, width);
  }

  lemma MulLe(a: nat, b: nat, c: nat)
    requires a <= b
    ensures a * c <= b * c
  {
  }

  lemma MulAssoc(a: nat, b: nat, c: nat)
    ensures (a * b) * c == a * (b * c)
  {
  }

  lemma DivMulLe(x: nat, d: nat)
    requires d > 0
    ensures (x / d) * d <= x
  {
  }

  lemma ProductOf2(shape: seq<nat>)
    requires |shape| == 2
    ensures Product(shape) == shape[0] * shape[1]
    ensures Product(shape[1..]) == shape[1]
  {
    assert shape[1..][1..] == [];
    assert Product(shape[1..]) == shape[1] * Product(shape[1..][1..]);
  }

  lemma ProductOf3(shape: seq<nat>)
    requires |shape| == 3
    ensures Product(shape) == shape[0] * (shape[1] * shape[2])
    ensures Product(shape[1..]) == shape[1] * shape[2]
  {
    ProductOf2(shape[1..]);
  }

  /** A 3-d array seen as `a * b` rows of `f` elements. */
  lemma ProductOfRows(shape: seq<nat>)
    requires |shape| == 3
    ensures Product(shape) == (shape[0] * shape[1]) * shape[2]
  {
    ProductOf3(shape);
    MulAssoc(shape[0], shape[1], shape[2]);
  }

  /** `a[0]`: the first sub-array along the leading axis. */
  function Index0<T>(a: NdArray<T>): (r: NdArray<T>)
    requires a.Valid() && 1 <= |a.shape| && 1 <= a.shape[0]
    ensures r.Valid() && r.shape == a.shape[1..]
    ensures |r.data| <= |a.data| && r.data == a.data[..|r.data|]
  {
    RowBound(0, a.shape[0], Product(a.shape[1..]));
    NdArray(a.shape[1..], a.data[..Product(a.shape[1..])])
  }

  /** `a.flatten()`. */
  function Flatten<T>(a: NdArray<T>): (r: NdArray<T>)
    ensures r.Valid() && r.data == a.data && r.shape == [|a.data|]
  {
    NdArray([|a.data|], a.data)
  }

  lemma PrefixAt<T>(s: seq<T>, n: nat, k: nat)
    requires k < n <= |s|
    ensures s[..n][k] == s[k]
  {
  }

  /** `a[i, j]` of a 2-d array. */
  function At2<T>(a: NdArray<T>, i: nat, j: nat): T
    requires a.Valid() && a.Ndim() == 2 && i < a.shape[0] && j < a.shape[1]
  {
    ProductOf2(a.shape);
    CellBound(i, j, a.shape[0], a.shape[1]);
    a.data[i * a.shape[1] + j]
  }

  /** `a[i, j, k]` of a 3-d array. */
  function At3<T>(a: NdArray<T>, i: nat, j: nat, k: nat): T
    requires a.Valid() && a.Ndim() == 3 && i < a.shape[0] && j < a.shape[1] && k < a.shape[2]
  {
    At3Index(a, i, j, k);
    a.data[(i * a.shape[1] + j) * a.shape[2] + k]
  }

  lemma At3Index<T>(a: NdArray<T>, i: nat, j: nat, k: nat)
    requires a.Valid() && a.Ndim() == 3 && i < a.shape[0] && j < a.shape[1] && k < a.shape[2]
    ensures (i * a.shape[1] + j) * a.shape[2] + k < |a.data|
  {
    ProductOf3(a.shape);
    CellBound(i, j, a.shape[0], a.shape[1]);
    CellBound(i * a.shape[1] + j, k, a.shape[0] * a.shape[1], a.shape[2]);
    MulAssoc(a.shape[0], a.shape[1], a.shape[2]);
  }

  /** Rows `0 .. n - 1` of width `width` of a row-major buffer: `[a[i, :] for i in range(n)]`. */
  function Rows<T>(data: seq<T>, n: nat, width: nat): (rows: seq<seq<T>>)
    requires n * width <= |data|
    ensures |rows| == n
    ensures forall i :: 0 <= i < n ==> |rows[i]| == width
    decreases n
  {
    if n == 0 then []
    else
      RowBound(n - 1, n, width);
      Rows(data, n - 1, width) + [data[(n - 1) * width .. (n - 1) * width + width]]
  }

  /** `[a[i].flatten() for i in range(a.shape[0])]`. */
  function RowsOf<T>(a: NdArray<T>): (rows: seq<seq<T>>)
    requires a.Valid() && 1 <= |a.shape|
    ensures |rows| == a.shape[0]
  {
    Rows(a.data, a.shape[0], Product(a.shape[1..]))
  }

  /** Column `level` of a `rows × cols` buffer: `a[:, level]`. */
  function Column<T>(data: seq<T>, rows: nat, cols: nat, level: nat): (column: seq<T>)
    requires rows * cols <= |data| && level < cols
    ensures |column| == rows
    decreases rows
  {
    if rows == 0 then []
    else
      CellBound(rows - 1, level, rows, cols);
      Column(data, rows - 1, cols, level) + [data[(rows - 1) * cols + level]]
  }

  /** The first `n` columns. */
  function Columns<T>(data: seq<T>, rows: nat, cols: nat, n: nat): (columns: seq<seq<T>>)
    requires rows * cols <= |data| && n <= cols
    ensures |columns| == n
    ensures forall l :: 0 <= l < n ==> |columns[l]| == rows
    decreases n
  {
    if n == 0 then [] else Columns(data, rows, cols, n - 1) + [Column(data, rows, cols, n - 1)]
  }

  /**
   * The pieces `data[i * stride + offset ..][..width]` for `i < n`, one after
   * the other: `a[:, level, :].flatten()` with `stride = b * f`,
   * `offset = level * f` and `width = f`.
   */
  function Strided<T>(data: seq<T>, n: nat, stride: nat, offset: nat, width: nat): (r: seq<T>)
    requires n * stride <= |data| && offset + width <= stride
    ensures |r| == n * width
    decreases n
  {
    if n == 0 then []
    else
      RowBound(n - 1, n, stride);
      MulLe(n - 1, n, stride);
      Strided(data, n - 1, stride, offset, width) + data[(n - 1) * stride + offset .. (n - 1) * stride + offset + width]
  }

  /** `[a[:, level, :].flatten() for level in range(n)]` for an `a × b × f` buffer. */
  function StridedLevels<T>(data: seq<T>, a: nat, b: nat, f: nat, n: nat): (levels: seq<seq<T>>)
    requires a * (b * f) <= |data| && n <= b
    ensures |levels| == n
    decreases n
  {
    if n == 0 then []
    else
      RowBound(n - 1, b, f);
      StridedLevels(data, a, b, f, n - 1) + [Strided(data, a, b * f, (n - 1) * f, f)]
  }

  /** Element `j` of row `i` is element `i * width + j` of the buffer. */
  lemma {:induction false} RowsAt<T>(data: seq<T>, n: nat, width: nat, i: nat, j: nat)
    requires n * width <= |data| && i < n && j < width
    ensures i * width + j < |data|
    ensures Rows(data, n, width)[i][j] == data[i * width + j]
    decreases n
  {
    CellBound(i, j, n, width);
    if i < n - 1 {
      MulLe(n - 1, n, width);
      RowsAt(data, n - 1, width, i, j);
    }
  }

  /** Element `r` of column `level` is element `r * cols + level` of the buffer. */
  lemma {:induction false} ColumnAt<T>(data: seq<T>, rows: nat, cols: nat, level: nat, r: nat)
    requires rows * cols <= |data| && level < cols && r < rows
    ensures r * cols + level < |data|
    ensures Column(data, rows, cols, level)[r] == data[r * cols + level]
    decreases rows
  {
    CellBound(r, level, rows, cols);
    if r < rows - 1 {
      MulLe(rows - 1, rows, cols);
      ColumnAt(data, rows - 1, cols, level, r);
    }
  }

  /** Element `l` of `Columns` is `Column(l)`. */
  lemma {:induction false} ColumnsAt<T>(data: seq<T>, rows: nat, cols: nat, n: nat, l: nat)
    requires rows * cols <= |data| && n <= cols && l < n
    ensures Columns(data, rows, cols, n)[l] == Column(data, rows, cols, l)
    decreases n
  {
    if l < n - 1 {
      ColumnsAt(data, rows, cols, n - 1, l);
    }
  }

  // ---------------------------------------------------------------- errors

  datatype EncodeError =
    | IndexError          // indexing an empty axis or a 0-d array
    | TypeError           // `float()` of a nested list
    | ValueError          // `torch.tensor` of ragged lists
    | ZeroDivisionError   // a zero sample rate, or zero frames in the 4-d fallback
    | LoadFailed          // the processor or the model could not be loaded
    | ModelFailed         // the processor or the model raised

  // ---------------------------------------------------------------- input audio

  /**
   * The input audio as the processor receives it: a `(1, N)` array is
   * flattened, a 1-d array kept, and any other array replaced by its first
   * row (flattened when that axis is empty).  A 0-d array has no first axis.
   */
  function NormalizeAudio(audio: NdArray<real>): (r: Result<NdArray<real>, EncodeError>)
    requires audio.Valid()
    ensures r.Err? <==> audio.Ndim() == 0
    ensures r.Err? ==> r.error == IndexError
    ensures r.Ok? ==> r.value.Valid() && 1 <= r.value.Ndim()
    ensures audio.Ndim() == 2 && audio.shape[0] == 1 ==> r == Ok(NdArray([|audio.data|], audio.data))
    ensures audio.Ndim() == 1 ==> r == Ok(audio)
    ensures audio.Ndim() >= 2 && audio.shape[0] >= 1 && !(audio.Ndim() == 2 && audio.shape[0] == 1) ==>
      r.Ok? && r.value.shape == audio.shape[1..] && r.value.data <= audio.data
    ensures audio.Ndim() >= 2 && audio.shape[0] == 0 ==> r == Ok(NdArray([0], []))
  {
    if audio.Ndim() == 2 && audio.shape[0] == 1 then Ok(Flatten(audio))
    else if audio.Ndim() == 1 then Ok(audio)
    else if audio.Ndim() == 0 then Err(IndexError)
    else if audio.shape[0] > 0 then Ok(Index0(audio))
    else Ok(Flatten(audio))
  }

  // ---------------------------------------------------------------- codebook indices

  /** The first axis of a 3-d shape whose size lies in 2 ..= 8, if any. */
  function CodebookAxis(shape: seq<nat>): (r: Option<nat>)
    requires |shape| == 3
    ensures r.Some? ==>
      r.value < 3 && 2 <= shape[r.value] <= 8 && forall i :: 0 <= i < r.value ==> !(2 <= shape[i] <= 8)
    ensures r.None? ==> forall i :: 0 <= i < 3 ==> !(2 <= shape[i] <= 8)
  {
    if 2 <= shape[0] <= 8 then Some(0)
    else if 2 <= shape[1] <= 8 then Some(1)
    else if 2 <= shape[2] <= 8 then Some(2)
    else None
  }

  /**
   * The levels of `codes[0]` for a 4-d code tensor, an `a × b × f` array:
   * a unit first or second axis is dropped; otherwise see `AmbiguousLevels`.
   */
  function Codes4dLevels(c0: NdArray<int>): (r: Result<seq<seq<int>>, EncodeError>)
    requires c0.Valid() && c0.Ndim() == 3
    ensures c0.shape[0] == 1 ==> r.Ok? && |r.value| == c0.shape[1]
    ensures c0.shape[0] != 1 && c0.shape[1] == 1 ==> r.Ok? && |r.value| == c0.shape[0]
    ensures r.Err? ==> r.error == ZeroDivisionError
  {
    if c0.shape[0] == 1 then Ok(RowsOf(Index0(c0)))
    else if c0.shape[1] == 1 then Ok(RowsOf(c0))
    else AmbiguousLevels(c0)
  }

  /**
   * An `a × b × f` array with neither unit axis: the levels run along the
   * first axis of size 2 ..= 8; without one the array is reshaped to rows of
   * `f` frames, which divides by `f`.
   */
  function AmbiguousLevels(c0: NdArray<int>): (r: Result<seq<seq<int>>, EncodeError>)
    requires c0.Valid() && c0.Ndim() == 3
    ensures r.Err? <==> CodebookAxis(c0.shape).None? && c0.shape[2] == 0
    ensures r.Ok? && CodebookAxis(c0.shape).Some? ==> |r.value| == c0.shape[CodebookAxis(c0.shape).value]
  {
    var a, b, f := c0.shape[0], c0.shape[1], c0.shape[2];
    match CodebookAxis(c0.shape)
    case Some(0) => Ok(RowsOf(c0))
    case Some(1) =>
      ProductOf3(c0.shape);
      Ok(StridedLevels(c0.data, a, b, f, b))
    case Some(_) =>
      ProductOfRows(c0.shape);
      Ok(Columns(c0.data, a * b, f, f))
    case None =>
      if f == 0 then Err(ZeroDivisionError)
      else
        DivMulLe(|c0.data|, f);
        Ok(Rows(c0.data, |c0.data| / f, f))
  }

  /**
   * One index list per codebook, chosen by the number of dimensions of the
   * code tensor: `[batch, codebooks, frames]` drops the batch axis;
   * a 2-d array is read by rows when it has fewer rows than columns and by
   * columns otherwise; a 4-d array is read by `Codes4dLevels`; any other
   * non-scalar array is read along its first axis; a scalar or no codes at
   * all give no levels.
   */
  function CodebookLevels(codes: Option<NdArray<int>>): (r: Result<seq<seq<int>>, EncodeError>)
    requires codes.Some? ==> codes.value.Valid()
  {
    if codes.None? then Ok([])
    else
      var c := codes.value;
      if c.Ndim() == 4 then
        if c.shape[0] == 0 then Err(IndexError) else Codes4dLevels(Index0(c))
      else if c.Ndim() == 3 then
        if c.shape[0] == 0 then Err(IndexError) else Ok(RowsOf(Index0(c)))
      else if c.Ndim() == 2 then
        ProductOf2(c.shape);
        if c.shape[0] < c.shape[1] then Ok(RowsOf(c))
        else Ok(Columns(c.data, c.shape[0], c.shape[1], c.shape[1]))
      else if c.Ndim() > 0 then Ok(RowsOf(c))
      else Ok([])
  }

  /** The `for level in range(n): append(a[level, :])` loop. */
  method AppendRows(data: seq<int>, n: nat, width: nat) returns (levels: seq<seq<int>>)
    requires n * width <= |data|
    ensures levels == Rows(data, n, width)
  {
    levels := [];
    for level := 0 to n
      invariant levels == Rows(data, level, width)
    {
      RowBound(level, n, width);
      MulLe(level + 1, n, width);
      levels := levels + [data[level * width .. level * width + width]];
    }
  }

  /** The `for level in range(cols): append(a[:, level])` loop of the transposed case. */
  method AppendColumns(data: seq<int>, rows: nat, cols: nat) returns (levels: seq<seq<int>>)
    requires rows * cols <= |data|
    ensures levels == Columns(data, rows, cols, cols)
  {
    levels := [];
    for level := 0 to cols
      invariant levels == Columns(data, rows, cols, level)
    {
      levels := levels + [Column(data, rows, cols, level)];
    }
  }

  /** The `for level in range(b): append(a[:, level, :].flatten())` loop. */
  method AppendStrided(data: seq<int>, a: nat, b: nat, f: nat) returns (levels: seq<seq<int>>)
    requires a * (b * f) <= |data|
    ensures levels == StridedLevels(data, a, b, f, b)
  {
    levels := [];
    for level := 0 to b
      invariant levels == StridedLevels(data, a, b, f, level)
    {
      RowBound(level, b, f);
      levels := levels + [Strided(data, a, b * f, level * f, f)];
    }
  }

  /** The 4-d branch of the extraction, on `codes[0]`. */
  method Codes4dIndices(c0: NdArray<int>) returns (r: Result<seq<seq<int>>, EncodeError>)
    requires c0.Valid() && c0.Ndim() == 3
    ensures r == Codes4dLevels(c0)
  {
    if c0.shape[0] == 1 {
      var c00 := Index0(c0);
      var levels := AppendRows(c00.data, c00.shape[0], Product(c00.shape[1..]));
      r := Ok(levels);
    } else if c0.shape[1] == 1 {
      var levels := AppendRows(c0.data, c0.shape[0], Product(c0.shape[1..]));
      r := Ok(levels);
    } else {
      r := AmbiguousIndices(c0);
    }
  }

  /** The search for a codebook axis and the extraction along it. */
  method AmbiguousIndices(c0: NdArray<int>) returns (r: Result<seq<seq<int>>, EncodeError>)
    requires c0.Valid() && c0.Ndim() == 3
    ensures r == AmbiguousLevels(c0)
  {
    var f := c0.shape[2];
    var axis := CodebookAxis(c0.shape);
    match axis {
      case Some(0) =>
        r := AxisRows(c0);
      case Some(1) =>
        r := AxisStrided(c0);
      case Some(_) =>
        r := AxisColumns(c0);
      case None =>
        if f == 0 {
          return Err(ZeroDivisionError);
        }
        DivMulLe(|c0.data|, f);
        var levels := AppendRows(c0.data, |c0.data| / f, f);
        r := Ok(levels);
    }
  }

  /** Extraction when the first axis holds the codebooks. */
  method AxisRows(c0: NdArray<int>) returns (r: Result<seq<seq<int>>, EncodeError>)
    requires c0.Valid() && c0.Ndim() == 3 && CodebookAxis(c0.shape) == Some(0)
    ensures r == AmbiguousLevels(c0)
  {
    AmbiguousIsRows(c0);
    var levels := AppendRows(c0.data, c0.shape[0], Product(c0.shape[1..]));
    r := Ok(levels);
  }

  /** Extraction when the middle axis holds the codebooks. */
  method AxisStrided(c0: NdArray<int>) returns (r: Result<seq<seq<int>>, EncodeError>)
    requires c0.Valid() && c0.Ndim() == 3 && CodebookAxis(c0.shape) == Some(1)
    ensures r == AmbiguousLevels(c0)
  {
    AmbiguousIsStrided(c0);
    var levels := AppendStrided(c0.data, c0.shape[0], c0.shape[1], c0.shape[2]);
    r := Ok(levels);
  }

  /** Extraction when the last axis holds the codebooks. */
  method AxisColumns(c0: NdArray<int>) returns (r: Result<seq<seq<int>>, EncodeError>)
    requires c0.Valid() && c0.Ndim() == 3 && CodebookAxis(c0.shape) == Some(2)
    ensures r == AmbiguousLevels(c0)
  {
    AmbiguousIsColumns(c0);
    var levels := AppendColumns(c0.data, c0.shape[0] * c0.shape[1], c0.shape[2]);
    r := Ok(levels);
  }

  /** The extraction of `codebook_indices` from `audio_codes`. */
  method CodebookIndices(codes: Option<NdArray<int>>) returns (r: Result<seq<seq<int>>, EncodeError>)
    requires codes.Some? ==> codes.value.Valid()
    ensures r == CodebookLevels(codes)
  {
    if codes.None? {
      return Ok([]);
    }
    var c := codes.value;
    if c.Ndim() == 4 {
      if c.shape[0] == 0 {
        return Err(IndexError);
      }
      r := Codes4dIndices(Index0(c));
      return;
    }
    var levels: seq<seq<int>>;
    if c.Ndim() == 3 {
      if c.shape[0] == 0 {
        return Err(IndexError);
      }
      var c0 := Index0(c);
      levels := AppendRows(c0.data, c0.shape[0], Product(c0.shape[1..]));
    } else if c.Ndim() == 2 {
      ProductOf2(c.shape);
      if c.shape[0] < c.shape[1] {
        levels := AppendRows(c.data, c.shape[0], Product(c.shape[1..]));
      } else {
        levels := AppendColumns(c.data, c.shape[0], c.shape[1]);
      }
    } else if c.Ndim() > 0 {
      levels := AppendRows(c.data, c.shape[0], Product(c.shape[1..]));
    } else {
      levels := [];
    }
    r := Ok(levels);
  }

  /**
   * For `[batch, codebooks, frames]` codes there is one list per codebook,
   * and entry `f` of list `l` is `codes[0, l, f]`.
   */
  lemma CodebookLevels3d(codes: NdArray<int>)
    requires codes.Valid() && codes.Ndim() == 3 && codes.shape[0] >= 1
    ensures CodebookLevels(Some(codes)).Ok?
    ensures |CodebookLevels(Some(codes)).value| == codes.shape[1]
    ensures forall l :: 0 <= l < codes.shape[1] ==> |CodebookLevels(Some(codes)).value[l]| == codes.shape[2]
    ensures forall l, f :: 0 <= l < codes.shape[1] && 0 <= f < codes.shape[2] ==>
      CodebookLevels(Some(codes)).value[l][f] == At3(codes, 0, l, f)
  {
    Levels3dAreRows(codes);
    assert Index0(codes).shape[0] == codes.shape[1];
    ProductOf2(Index0(codes).shape);
    forall l: nat, f: nat | l < codes.shape[1] && f < codes.shape[2] {
      Level3dAt(codes, l, f);
    }
  }

  lemma Levels3dAreRows(codes: NdArray<int>)
    requires codes.Valid() && codes.Ndim() == 3 && codes.shape[0] >= 1
    ensures CodebookLevels(Some(codes)) == Ok(RowsOf(Index0(codes)))
  {
  }

  lemma Level3dAt<T>(codes: NdArray<T>, l: nat, f: nat)
    requires codes.Valid() && codes.Ndim() == 3 && codes.shape[0] >= 1
    requires l < codes.shape[1] && f < codes.shape[2]
    ensures |RowsOf(Index0(codes))[l]| == codes.shape[2]
    ensures RowsOf(Index0(codes))[l][f] == At3(codes, 0, l, f)
  {
    var c0 := Index0(codes);
    ProductOf2(c0.shape);
    assert c0.shape[0] == codes.shape[1] && c0.shape[1] == codes.shape[2];
    var width := codes.shape[2];
    RowsAt(c0.data, c0.shape[0], width, l, f);
    assert RowsOf(c0) == Rows(c0.data, c0.shape[0], width);
    var k := l * width + f;
    assert k < |c0.data|;
    PrefixAt(codes.data, |c0.data|, k);
    assert (0 * codes.shape[1] + l) * width + f == k;
  }

  /** For 2-d codes with fewer rows than columns the levels are the rows: entry `f` of list `l` is `codes[l, f]`. */
  lemma CodebookLevels2dRows(codes: NdArray<int>)
    requires codes.Valid() && codes.Ndim() == 2 && codes.shape[0] < codes.shape[1]
    ensures var r := CodebookLevels(Some(codes));
      r.Ok? && |r.value| == codes.shape[0] &&
      forall l, f :: 0 <= l < codes.shape[0] && 0 <= f < codes.shape[1] ==>
        |r.value[l]| == codes.shape[1] && r.value[l][f] == At2(codes, l, f)
  {
    var rows, cols := codes.shape[0], codes.shape[1];
    ProductOf2(codes.shape);
    var levels := Rows(codes.data, rows, cols);
    assert CodebookLevels(Some(codes)) == Ok(levels);
    forall l, f | 0 <= l < rows && 0 <= f < cols
      ensures levels[l][f] == At2(codes, l, f)
    {
      RowsAt(codes.data, rows, cols, l, f);
    }
  }

  /**
   * For 2-d codes with at least as many rows as columns the levels are the
   * columns: entry `f` of list `l` is `codes[f, l]`.
   */
  lemma CodebookLevels2dColumns(codes: NdArray<int>)
    requires codes.Valid() && codes.Ndim() == 2 && codes.shape[1] <= codes.shape[0]
    ensures var r := CodebookLevels(Some(codes));
      r.Ok? && |r.value| == codes.shape[1] &&
      forall l, f :: 0 <= l < codes.shape[1] && 0 <= f < codes.shape[0] ==>
        |r.value[l]| == codes.shape[0] && r.value[l][f] == At2(codes, f, l)
  {
    var rows, cols := codes.shape[0], codes.shape[1];
    ProductOf2(codes.shape);
    var levels := Columns(codes.data, rows, cols, cols);
    assert CodebookLevels(Some(codes)) == Ok(levels);
    forall l, f | 0 <= l < cols && 0 <= f < rows
      ensures levels[l][f] == At2(codes, f, l)
    {
      ColumnsAt(codes.data, rows, cols, cols, l);
      ColumnAt(codes.data, rows, cols, l, f);
    }
  }

  /**
   * For `[batch, 1, codebooks, frames]` codes the channel axis is dropped
   * like the batch axis: the levels are those of `codes[0]`.
   */
  lemma CodebookLevelsUnitChannel(codes: NdArray<int>)
    requires codes.Valid() && codes.Ndim() == 4 && codes.shape[0] >= 1 && codes.shape[1] == 1
    ensures Index0(codes).Ndim() == 3 && Index0(codes).shape[0] >= 1
    ensures CodebookLevels(Some(codes)) == CodebookLevels(Some(Index0(codes)))
  {
  }

  /** Entry `j` of piece `i` of a strided slice is `data[i * stride + offset + j]`. */
  lemma {:induction false} StridedAt<T>(data: seq<T>, n: nat, stride: nat, offset: nat, width: nat, i: nat, j: nat)
    requires n * stride <= |data| && offset + width <= stride && i < n && j < width
    ensures i * width + j < n * width && i * stride + offset + j < |data|
    ensures Strided(data, n, stride, offset, width)[i * width + j] == data[i * stride + offset + j]
    decreases n
  {
    CellBound(i, j, n, width);
    if i < n - 1 {
      CellBound(i, j, n - 1, width);
      StridedPrefix(data, n, stride, offset, width, i * width + j);
      StridedAt(data, n - 1, stride, offset, width, i, j);
    } else {
      StridedLast(data, n, stride, offset, width, j);
    }
  }

  /** The first `n - 1` pieces are those of the shorter slice. */
  lemma StridedPrefix<T>(data: seq<T>, n: nat, stride: nat, offset: nat, width: nat, k: nat)
    requires 0 < n && n * stride <= |data| && offset + width <= stride
    ensures (n - 1) * stride <= |data|
    requires k < (n - 1) * width
    ensures Strided(data, n, stride, offset, width)[k] == Strided(data, n - 1, stride, offset, width)[k]
  {
    RowBound(n - 1, n, stride);
  }

  /** The last piece is the last `width` elements. */
  lemma StridedLast<T>(data: seq<T>, n: nat, stride: nat, offset: nat, width: nat, j: nat)
    requires 0 < n && n * stride <= |data| && offset + width <= stride && j < width
    ensures (n - 1) * width + j < n * width && (n - 1) * stride + offset + j < |data|
    ensures Strided(data, n, stride, offset, width)[(n - 1) * width + j] == data[(n - 1) * stride + offset + j]
  {
    RowBound(n - 1, n, stride);
    CellBound(n - 1, j, n, width);
    var init := Strided(data, n - 1, stride, offset, width);
    var base := (n - 1) * stride + offset;
    assert Strided(data, n, stride, offset, width) == init + data[base .. base + width];
  }

  /** Element `l` of `StridedLevels` is the strided slice at offset `l * f`. */
  lemma {:induction false} StridedLevelsAt<T>(data: seq<T>, a: nat, b: nat, f: nat, n: nat, l: nat)
    requires a * (b * f) <= |data| && n <= b && l < n
    ensures l * f + f <= b * f
    ensures StridedLevels(data, a, b, f, n)[l] == Strided(data, a, b * f, l * f, f)
    decreases n
  {
    RowBound(l, b, f);
    if l < n - 1 {
      StridedLevelsAt(data, a, b, f, n - 1, l);
    }
  }

  /** Level `l` exists, has an entry at position `e`, and that entry is `x`. */
  predicate LevelEntry<T(==)>(levels: seq<seq<T>>, l: int, e: int, x: T)
  {
    0 <= l < |levels| && 0 <= e < |levels[l]| && levels[l][e] == x
  }

  /** Where cell `[i, j, k]` of an `a × b × f` buffer sits: in the buffer, in row `i`, in strided level `j`. */
  lemma CellOffsets(i: nat, j: nat, k: nat, a: nat, b: nat, f: nat)
    requires i < a && j < b && k < f
    ensures 0 <= j * f + k < b * f
    ensures 0 <= i * (b * f) + (j * f + k) < a * (b * f)
    ensures 0 <= i * f + k < a * f
  {
    CellBound(j, k, b, f);
    CellBound(i, j * f + k, a, b * f);
    CellBound(i, k, a, f);
  }

  /** Where cell `[i, j, l]` of an `a × b × f` buffer sits: in the buffer and in column `l` of the `(a * b) × f` view. */
  lemma ColumnOffsets(i: nat, j: nat, l: nat, a: nat, b: nat, f: nat)
    requires i < a && j < b && l < f
    ensures 0 <= i * b + j < a * b
    ensures 0 <= (i * b + j) * f + l < (a * b) * f
  {
    CellBound(i, j, a, b);
    CellBound(i * b + j, l, a * b, f);
  }

  /** `c0[i, j, k]` read as entry `j * f + k` of row `i` of width `b * f`. */
  lemma At3AsRow<T>(c0: NdArray<T>, i: nat, j: nat, k: nat)
    requires c0.Valid() && c0.Ndim() == 3 && i < c0.shape[0] && j < c0.shape[1] && k < c0.shape[2]
    ensures i * (c0.shape[1] * c0.shape[2]) + (j * c0.shape[2] + k) < |c0.data|
    ensures At3(c0, i, j, k) == c0.data[i * (c0.shape[1] * c0.shape[2]) + (j * c0.shape[2] + k)]
  {
    var a, b, f := c0.shape[0], c0.shape[1], c0.shape[2];
    ProductOf3(c0.shape);
    CellBound(j, k, b, f);
    CellBound(i, j * f + k, a, b * f);
    assert (i * b + j) * f == i * b * f + j * f;
    MulAssoc(i, b, f);
  }

  /** Entry `j * f + k` of row `l` of width `b * f` is `data[l * (b * f) + (j * f + k)]`. */
  lemma RowsCell<T>(data: seq<T>, a: nat, b: nat, f: nat, l: nat, j: nat, k: nat)
    requires a * (b * f) <= |data| && l < a && j < b && k < f
    ensures 0 <= l * (b * f) + (j * f + k) < |data|
    ensures LevelEntry(Rows(data, a, b * f), l, j * f + k, data[l * (b * f) + (j * f + k)])
  {
    CellOffsets(l, j, k, a, b, f);
    RowsAt(data, a, b * f, l, j * f + k);
  }

  /** Entry `i * f + k` of strided level `l` is `data[i * (b * f) + (l * f + k)]`. */
  lemma StridedLevelsCell<T>(data: seq<T>, a: nat, b: nat, f: nat, i: nat, l: nat, k: nat)
    requires a * (b * f) <= |data| && i < a && l < b && k < f
    ensures 0 <= i * (b * f) + (l * f + k) < |data|
    ensures LevelEntry(StridedLevels(data, a, b, f, b), l, i * f + k, data[i * (b * f) + (l * f + k)])
  {
    var offset := l * f;
    CellOffsets(i, l, k, a, b, f);
    StridedLevelsAt(data, a, b, f, b, l);
    StridedAt(data, a, b * f, offset, f, i, k);
  }

  /** Entry `i * b + j` of column `l` of the `(a * b) × f` view is `data[(i * b + j) * f + l]`. */
  lemma ColumnsCell<T>(data: seq<T>, a: nat, b: nat, f: nat, i: nat, j: nat, l: nat)
    requires (a * b) * f <= |data| && i < a && j < b && l < f
    ensures 0 <= (i * b + j) * f + l < |data|
    ensures LevelEntry(Columns(data, a * b, f, f), l, i * b + j, data[(i * b + j) * f + l])
  {
    ColumnOffsets(i, j, l, a, b, f);
    ColumnsAt(data, a * b, f, f, l);
    ColumnAt(data, a * b, f, l, i * b + j);
  }

  lemma AmbiguousIsRows(c0: NdArray<int>)
    requires c0.Valid() && c0.Ndim() == 3 && CodebookAxis(c0.shape) == Some(0)
    ensures c0.shape[0] * (c0.shape[1] * c0.shape[2]) <= |c0.data|
    ensures Product(c0.shape[1..]) == c0.shape[1] * c0.shape[2]
    ensures AmbiguousLevels(c0) == Ok(RowsOf(c0))
    ensures AmbiguousLevels(c0) == Ok(Rows(c0.data, c0.shape[0], c0.shape[1] * c0.shape[2]))
  {
    ProductOf3(c0.shape);
  }

  lemma AmbiguousIsStrided(c0: NdArray<int>)
    requires c0.Valid() && c0.Ndim() == 3 && CodebookAxis(c0.shape) == Some(1)
    ensures c0.shape[0] * (c0.shape[1] * c0.shape[2]) <= |c0.data|
    ensures AmbiguousLevels(c0) == Ok(StridedLevels(c0.data, c0.shape[0], c0.shape[1], c0.shape[2], c0.shape[1]))
  {
    ProductOf3(c0.shape);
  }

  lemma AmbiguousIsColumns(c0: NdArray<int>)
    requires c0.Valid() && c0.Ndim() == 3 && CodebookAxis(c0.shape) == Some(2)
    ensures (c0.shape[0] * c0.shape[1]) * c0.shape[2] <= |c0.data|
    ensures AmbiguousLevels(c0) == Ok(Columns(c0.data, c0.shape[0] * c0.shape[1], c0.shape[2], c0.shape[2]))
  {
    ProductOfRows(c0.shape);
  }

  lemma RowsCell3(c0: NdArray<int>, l: nat, j: nat, k: nat)
    requires c0.Valid() && c0.Ndim() == 3 && l < c0.shape[0] && j < c0.shape[1] && k < c0.shape[2]
    ensures c0.shape[0] * (c0.shape[1] * c0.shape[2]) <= |c0.data|
    ensures LevelEntry(Rows(c0.data, c0.shape[0], c0.shape[1] * c0.shape[2]), l, j * c0.shape[2] + k, At3(c0, l, j, k))
  {
    ProductOf3(c0.shape);
    RowsCell(c0.data, c0.shape[0], c0.shape[1], c0.shape[2], l, j, k);
    At3AsRow(c0, l, j, k);
  }

  lemma StridedCell3(c0: NdArray<int>, i: nat, l: nat, k: nat)
    requires c0.Valid() && c0.Ndim() == 3 && i < c0.shape[0] && l < c0.shape[1] && k < c0.shape[2]
    ensures c0.shape[0] * (c0.shape[1] * c0.shape[2]) <= |c0.data|
    ensures LevelEntry(StridedLevels(c0.data, c0.shape[0], c0.shape[1], c0.shape[2], c0.shape[1]), l, i * c0.shape[2] + k, At3(c0, i, l, k))
  {
    ProductOf3(c0.shape);
    StridedLevelsCell(c0.data, c0.shape[0], c0.shape[1], c0.shape[2], i, l, k);
    At3AsRow(c0, i, l, k);
  }

  lemma ColumnsCell3(c0: NdArray<int>, i: nat, j: nat, l: nat)
    requires c0.Valid() && c0.Ndim() == 3 && i < c0.shape[0] && j < c0.shape[1] && l < c0.shape[2]
    ensures (c0.shape[0] * c0.shape[1]) * c0.shape[2] <= |c0.data|
    ensures LevelEntry(Columns(c0.data, c0.shape[0] * c0.shape[1], c0.shape[2], c0.shape[2]), l, i * c0.shape[1] + j, At3(c0, i, j, l))
  {
    ProductOfRows(c0.shape);
    ColumnsCell(c0.data, c0.shape[0], c0.shape[1], c0.shape[2], i, j, l);
  }

  /** A unit first axis (`codes[0]`): entry `k` of level `l` is `c0[0, l, k]`. */
  lemma Codes4dUnitFirstAt(c0: NdArray<int>, l: nat, k: nat)
    requires c0.Valid() && c0.Ndim() == 3 && c0.shape[0] == 1
    requires l < c0.shape[1] && k < c0.shape[2]
    ensures Codes4dLevels(c0).Ok? && LevelEntry(Codes4dLevels(c0).value, l, k, At3(c0, 0, l, k))
  {
    Level3dAt(c0, l, k);
  }

  /** A unit second axis (`codes[:, 0, :]`): entry `k` of level `l` is `c0[l, 0, k]`. */
  lemma Codes4dUnitSecondAt(c0: NdArray<int>, l: nat, k: nat)
    requires c0.Valid() && c0.Ndim() == 3 && c0.shape[0] != 1 && c0.shape[1] == 1
    requires l < c0.shape[0] && k < c0.shape[2]
    ensures Codes4dLevels(c0).Ok? && LevelEntry(Codes4dLevels(c0).value, l, k, At3(c0, l, 0, k))
  {
    ProductOf3(c0.shape);
    assert Product(c0.shape[1..]) == c0.shape[2];
    RowsCell3(c0, l, 0, k);
  }

  /** Codebooks along the first axis: entry `j * f + k` of level `l` is `c0[l, j, k]`. */
  lemma AmbiguousRowsAt(c0: NdArray<int>, l: nat, j: nat, k: nat)
    requires c0.Valid() && c0.Ndim() == 3 && CodebookAxis(c0.shape) == Some(0)
    requires l < c0.shape[0] && j < c0.shape[1] && k < c0.shape[2]
    ensures AmbiguousLevels(c0).Ok? && LevelEntry(AmbiguousLevels(c0).value, l, j * c0.shape[2] + k, At3(c0, l, j, k))
  {
    AmbiguousIsRows(c0);
    RowsCell3(c0, l, j, k);
  }

  /** Codebooks along the second axis: entry `i * f + k` of level `l` is `c0[i, l, k]`. */
  lemma AmbiguousStridedAt(c0: NdArray<int>, i: nat, l: nat, k: nat)
    requires c0.Valid() && c0.Ndim() == 3 && CodebookAxis(c0.shape) == Some(1)
    requires i < c0.shape[0] && l < c0.shape[1] && k < c0.shape[2]
    ensures AmbiguousLevels(c0).Ok? && LevelEntry(AmbiguousLevels(c0).value, l, i * c0.shape[2] + k, At3(c0, i, l, k))
  {
    AmbiguousIsStrided(c0);
    StridedCell3(c0, i, l, k);
  }

  /** Codebooks along the third axis: entry `i * b + j` of level `l` is `c0[i, j, l]`. */
  lemma AmbiguousColumnsAt(c0: NdArray<int>, i: nat, j: nat, l: nat)
    requires c0.Valid() && c0.Ndim() == 3 && CodebookAxis(c0.shape) == Some(2)
    requires i < c0.shape[0] && j < c0.shape[1] && l < c0.shape[2]
    ensures AmbiguousLevels(c0).Ok? && LevelEntry(AmbiguousLevels(c0).value, l, i * c0.shape[1] + j, At3(c0, i, j, l))
  {
    AmbiguousIsColumns(c0);
    ColumnsCell3(c0, i, j, l);
  }

  // ---------------------------------------------------------------- metrics

  /** The number of indices over all levels. */
  function TotalLength<T>(levels: seq<seq<T>>): nat
  {
    if |levels| == 0 then 0 else TotalLength(levels[..|levels| - 1]) + |levels[|levels| - 1]|
  }

  /** Reading a buffer by rows loses and repeats no index. */
  lemma {:induction false} RowsTotal<T>(data: seq<T>, n: nat, width: nat)
    requires n * width <= |data|
    ensures TotalLength(Rows(data, n, width)) == n * width
    decreases n
  {
    if n > 0 {
      MulLe(n - 1, n, width);
      RowsTotal(data, n - 1, width);
      assert Rows(data, n, width)[..n - 1] == Rows(data, n - 1, width);
      assert (n - 1) * width + width == n * width;
    }
  }

  /** Reading a buffer by columns loses and repeats no index. */
  lemma {:induction false} ColumnsTotal<T>(data: seq<T>, rows: nat, cols: nat, n: nat)
    requires rows * cols <= |data| && n <= cols
    ensures TotalLength(Columns(data, rows, cols, n)) == n * rows
    decreases n
  {
    if n > 0 {
      ColumnsTotal(data, rows, cols, n - 1);
      assert Columns(data, rows, cols, n)[..n - 1] == Columns(data, rows, cols, n - 1);
      assert (n - 1) * rows + rows == n * rows;
    }
  }

  /** For 2-d and 3-d codes every index of the (first) code matrix is counted once. */
  lemma CodebookLevelsTotal(codes: NdArray<int>)
    requires codes.Valid() && (codes.Ndim() == 2 || (codes.Ndim() == 3 && codes.shape[0] >= 1))
    ensures CodebookLevels(Some(codes)).Ok?
    ensures TotalLength(CodebookLevels(Some(codes)).value) == Product(codes.shape[codes.Ndim() - 2..])
  {
    if codes.Ndim() == 3 {
      var c0 := Index0(codes);
      ProductOf2(c0.shape);
      assert codes.shape[1..] == c0.shape;
      RowsTotal(c0.data, c0.shape[0], c0.shape[1]);
    } else {
      ProductOf2(codes.shape);
      assert codes.shape[0..] == codes.shape;
      if codes.shape[0] < codes.shape[1] {
        RowsTotal(codes.data, codes.shape[0], codes.shape[1]);
      } else {
        ColumnsTotal(codes.data, codes.shape[0], codes.shape[1], codes.shape[1]);
      }
    }
  }

  datatype Metadata = Metadata(duration: real, sampleRate: int, numFrames: nat, numCodebooks: nat)

  datatype Metrics = Metrics(compressionRatio: real, bitsPerSecond: real, originalSize: nat, compressedSize: nat)

  /**
   * The metadata and compression metrics: two bytes per input sample, one
   * byte per code index; a zero original size gives ratio 0 and a
   * non-positive duration gives 0 bits per second.  The duration divides by
   * the sample rate, which raises for 0.
   */
  function Measure(numFrames: nat, sampleRate: int, levels: seq<seq<int>>): (r: Result<(Metadata, Metrics), EncodeError>)
    ensures r.Err? <==> sampleRate == 0
    ensures r.Ok? ==> var (meta, m) := r.value;
      meta.numFrames == numFrames && meta.numCodebooks == |levels| && meta.sampleRate == sampleRate &&
      meta.duration * sampleRate as real == numFrames as real &&
      m.originalSize == 2 * numFrames && m.compressedSize == TotalLength(levels) &&
      (numFrames == 0 ==> m.compressionRatio == 0.0) &&
      (numFrames > 0 ==> m.compressionRatio * m.originalSize as real == m.compressedSize as real) &&
      (meta.duration <= 0.0 ==> m.bitsPerSecond == 0.0) &&
      (meta.duration > 0.0 ==> m.bitsPerSecond * meta.duration == 8.0 * m.compressedSize as real)
  {
    if sampleRate == 0 then Err(ZeroDivisionError)
    else
      var duration := numFrames as real / sampleRate as real;
      var originalSize := numFrames * 2;
      var compressedSize := TotalLength(levels) * 1;
      var ratio := if originalSize > 0 then compressedSize as real / originalSize as real else 0.0;
      var bps := if duration > 0.0 then (compressedSize * 8) as real / duration else 0.0;
      Ok((Metadata(duration, sampleRate, numFrames, |levels|), Metrics(ratio, bps, originalSize, compressedSize)))
  }

  // ---------------------------------------------------------------- latents

  /** A Python value as `tolist()` and the clean-up see it. */
  datatype PyValue = PyNone | PyNum(x: real) | PyList(items: seq<PyValue>)

  /** A list of float lists as Python values. */
  function AsPy(rows: seq<seq<real>>): (r: seq<PyValue>)
    ensures |r| == |rows|
  {
    seq(|rows|, i requires 0 <= i < |rows| => PyList(seq(|rows[i]|, j requires 0 <= j < |rows[i]| => PyNum(rows[i][j]))))
  }

  /** `tolist()` of an array with no elements: nested empty lists. */
  function EmptyNested(shape: seq<nat>): PyValue
    decreases |shape|
  {
    if |shape| <= 1 then PyList([])
    else PyList(seq(shape[0], _ => EmptyNested(shape[1..])))
  }

  /** A product with no zero factor is positive; in particular the last axis is not empty. */
  lemma {:induction false} ProductPositive(shape: seq<nat>)
    requires Product(shape) > 0 && |shape| > 0
    ensures shape[|shape| - 1] > 0
    decreases |shape|
  {
    if |shape| > 1 {
      assert shape[1..][|shape[1..]| - 1] == shape[|shape| - 1];
      ProductPositive(shape[1..]);
    }
  }

  /**
   * `latents` after the embeddings are read (absent or unreadable: `[[]]`):
   * a 4-d array is taken at `[0, 0]`, a 3-d one at `[0]`, a 2-d one as it is,
   * and any other non-empty one reshaped to rows as long as its last axis.
   */
  function EmbeddingRows(embeddings: Option<NdArray<real>>): (r: seq<PyValue>)
    requires embeddings.Some? ==> embeddings.value.Valid()
    ensures embeddings.None? ==> r == [PyList([])]
    ensures embeddings.Some? && embeddings.value.Ndim() == 2 ==> |r| == embeddings.value.shape[0]
    ensures embeddings.Some? && embeddings.value.Ndim() in {3, 4} && embeddings.value.shape[0] == 0 ==> r == [PyList([])]
    ensures embeddings.Some? && embeddings.value.Ndim() == 0 ==> r == [PyList([])]
  {
    if embeddings.None? then [PyList([])]
    else
      var e := embeddings.value;
      if e.Ndim() == 4 then
        if e.shape[0] == 0 || e.shape[1] == 0 then [PyList([])]
        else
          AsPy(RowsOf(Index0(Index0(e))))
      else if e.Ndim() == 3 then
        if e.shape[0] == 0 then [PyList([])]
        else
          AsPy(RowsOf(Index0(e)))
      else if e.Ndim() == 2 then
        AsPy(RowsOf(e))
      else if |e.data| > 0 then
        if e.Ndim() == 0 then [PyList([])]
        else
          var embeddingDim := e.shape[e.Ndim() - 1];
          ProductPositive(e.shape);
          DivMulLe(|e.data|, embeddingDim);
          AsPy(Rows(e.data, |e.data| / embeddingDim, embeddingDim))
      else EmptyNested(e.shape).items
  }

  /** 2-d embeddings: latent row `i` holds `e[i, j]` at position `j`. */
  lemma EmbeddingRows2dAt(e: NdArray<real>, i: nat, j: nat)
    requires e.Valid() && e.Ndim() == 2 && i < e.shape[0] && j < e.shape[1]
    ensures var r := EmbeddingRows(Some(e));
      |r| == e.shape[0] && r[i].PyList? && |r[i].items| == e.shape[1] && r[i].items[j] == PyNum(At2(e, i, j))
  {
    ProductOf2(e.shape);
    RowsAt(e.data, e.shape[0], e.shape[1], i, j);
    assert RowsOf(e) == Rows(e.data, e.shape[0], e.shape[1]);
  }

  /** 3-d embeddings: latent row `i` holds `e[0, i, j]` at position `j`. */
  lemma EmbeddingRows3dAt(e: NdArray<real>, i: nat, j: nat)
    requires e.Valid() && e.Ndim() == 3 && 1 <= e.shape[0] && i < e.shape[1] && j < e.shape[2]
    ensures var r := EmbeddingRows(Some(e));
      |r| == e.shape[1] && r[i].PyList? && |r[i].items| == e.shape[2] && r[i].items[j] == PyNum(At3(e, 0, i, j))
  {
    Level3dAt(e, i, j);
    assert Index0(e).shape[0] == e.shape[1];
  }

  /** 4-d embeddings: latent row `i` holds `e[0, 0, i, j]`, entry `[0, i, j]` of `e[0]`, at position `j`. */
  lemma EmbeddingRows4dAt(e: NdArray<real>, i: nat, j: nat)
    requires e.Valid() && e.Ndim() == 4 && 1 <= e.shape[0] && 1 <= e.shape[1] && i < e.shape[2] && j < e.shape[3]
    ensures Index0(e).Ndim() == 3 && Index0(e).shape == e.shape[1..]
    ensures var r := EmbeddingRows(Some(e));
      |r| == e.shape[2] && r[i].PyList? && |r[i].items| == e.shape[3] && r[i].items[j] == PyNum(At3(Index0(e), 0, i, j))
  {
    var e0 := Index0(e);
    Level3dAt(e0, i, j);
    assert e0.shape[0] == e.shape[1] && Index0(e0).shape[0] == e.shape[2];
  }

  /** `[float(x) for x in item if x is not None]`: `float` of a nested list raises. */
  function Floats(xs: seq<PyValue>): (r: Result<seq<real>, EncodeError>)
    ensures r.Err? <==> exists i :: 0 <= i < |xs| && xs[i].PyList?
    ensures r.Err? ==> r.error == TypeError
    ensures r.Ok? ==> forall v :: v in r.value <==> PyNum(v) in xs
  {
    if |xs| == 0 then Ok([])
    else
      var rest := Floats(xs[1..]);
      assert forall i :: 1 <= i < |xs| ==> xs[i] == xs[1..][i - 1];
      match xs[0]
      case PyNone => rest
      case PyNum(v) => if rest.Ok? then Ok([v] + rest.value) else rest
      case PyList(_) => Err(TypeError)
  }

  /** `float()` over a concatenation: it succeeds iff it does on both parts, and the numbers concatenate. */
  lemma {:induction false} FloatsAppend(xs: seq<PyValue>, ys: seq<PyValue>)
    ensures Floats(xs + ys).Ok? <==> Floats(xs).Ok? && Floats(ys).Ok?
    ensures Floats(xs + ys).Ok? ==> Floats(xs + ys).value == Floats(xs).value + Floats(ys).value
    decreases |xs|
  {
    if |xs| == 0 {
      assert xs + ys == ys;
    } else {
      assert (xs + ys)[0] == xs[0];
      assert (xs + ys)[1..] == xs[1..] + ys;
      FloatsAppend(xs[1..], ys);
      if Floats(xs + ys).Ok? && xs[0].PyNum? {
        assert [xs[0].x] + (Floats(xs[1..]).value + Floats(ys).value) == ([xs[0].x] + Floats(xs[1..]).value) + Floats(ys).value;
      }
    }
  }

  /** One latent row after clean-up: `None` becomes `[]`, a list its floats, a number a singleton. */
  function CleanItem(item: PyValue): Result<seq<real>, EncodeError>
  {
    match item
    case PyNone => Ok([])
    case PyList(xs) => Floats(xs)
    case PyNum(v) => Ok([v])
  }

  /** Every item cleaned, in order; the first failure is the result. */
  function CleanRows(latents: seq<PyValue>): (r: Result<seq<seq<real>>, EncodeError>)
    ensures r.Ok? ==> |r.value| == |latents|
  {
    if |latents| == 0 then Ok([])
    else
      var init := CleanRows(latents[..|latents| - 1]);
      var last := CleanItem(latents[|latents| - 1]);
      if init.Err? then init
      else if last.Err? then Err(last.error)
      else Ok(init.value + [last.value])
  }

  /**
   * Row `i` of the clean-up is `CleanItem` of item `i`; a failure is the
   * failure of the first item that fails.
   */
  lemma {:induction false} CleanRowsItems(latents: seq<PyValue>)
    ensures CleanRows(latents).Ok? ==>
      forall i :: 0 <= i < |latents| ==> CleanItem(latents[i]) == Ok(CleanRows(latents).value[i])
    ensures CleanRows(latents).Err? ==>
      exists i :: 0 <= i < |latents| && CleanItem(latents[i]) == Err(CleanRows(latents).error) &&
        forall j :: 0 <= j < i ==> CleanItem(latents[j]).Ok?
    decreases |latents|
  {
    if |latents| > 0 {
      var n := |latents| - 1;
      var init := latents[..n];
      CleanRowsItems(init);
      assert forall i :: 0 <= i < n ==> init[i] == latents[i];
      if CleanRows(init).Err? {
        var i :| 0 <= i < n && CleanItem(init[i]) == Err(CleanRows(init).error) &&
          forall j :: 0 <= j < i ==> CleanItem(init[j]).Ok?;
        assert CleanItem(latents[i]) == Err(CleanRows(latents).error);
      } else if CleanItem(latents[n]).Err? {
        assert forall j :: 0 <= j < n ==> CleanItem(latents[j]).Ok?;
      }
    }
  }

  /** The clean-up loop: `for item in latents: cleaned.append(...)`. */
  method CleanLatentRows(latents: seq<PyValue>) returns (r: Result<seq<seq<real>>, EncodeError>)
    ensures r == CleanRows(latents)
  {
    var cleaned: seq<seq<real>> := [];
    for i := 0 to |latents|
      invariant CleanRows(latents[..i]) == Ok(cleaned)
    {
      assert latents[..i + 1][..i] == latents[..i];
      var item := CleanItem(latents[i]);
      if item.Err? {
        CleanRowsFailure(latents, i + 1);
        return Err(item.error);
      }
      cleaned := cleaned + [item.value];
    }
    assert latents[..|latents|] == latents;
    r := Ok(cleaned);
  }

  /** A failure in a prefix is the failure of the whole. */
  lemma {:induction false} CleanRowsFailure(latents: seq<PyValue>, n: nat)
    requires n <= |latents| && CleanRows(latents[..n]).Err?
    ensures CleanRows(latents) == CleanRows(latents[..n])
    decreases |latents| - n
  {
    if n < |latents| {
      var m := |latents| - 1;
      assert latents[..m][..n] == latents[..n];
      CleanRowsFailure(latents[..m], n);
      assert latents[..m] == latents[..|latents| - 1];
    } else {
      assert latents[..n] == latents;
    }
  }

  /** The first clean-up pass: an empty list becomes `[[]]`. */
  function FirstPass(latents: seq<PyValue>): Result<seq<seq<real>>, EncodeError>
  {
    if |latents| == 0 then Ok([[]]) else CleanRows(latents)
  }

  /**
   * The final validation pass: an empty list becomes `[[]]`, a list whose
   * first element is not a list is wrapped into one row, and every row is
   * cleaned again.
   */
  function FinalPass(latents: seq<PyValue>): Result<seq<seq<real>>, EncodeError>
  {
    if |latents| == 0 then Ok([[]])
    else
      var wrapped := if !latents[0].PyList? then [PyList(latents)] else latents;
      CleanRows(wrapped)
  }

  /** Cleaning a list of float lists changes nothing. */
  lemma {:induction false} CleanRowsOfFloats(rows: seq<seq<real>>)
    ensures CleanRows(AsPy(rows)) == Ok(rows)
    decreases |rows|
  {
    if |rows| > 0 {
      var n := |rows| - 1;
      assert AsPy(rows)[..n] == AsPy(rows[..n]);
      CleanRowsOfFloats(rows[..n]);
      FloatsOfNums(rows[n]);
      assert rows[..n] + [rows[n]] == rows;
    }
  }

  lemma {:induction false} FloatsOfNums(row: seq<real>)
    ensures Floats(seq(|row|, j requires 0 <= j < |row| => PyNum(row[j]))) == Ok(row)
    decreases |row|
  {
    if |row| > 0 {
      var xs := seq(|row|, j requires 0 <= j < |row| => PyNum(row[j]));
      assert xs[1..] == seq(|row[1..]|, j requires 0 <= j < |row[1..]| => PyNum(row[1..][j]));
      FloatsOfNums(row[1..]);
      assert [row[0]] + row[1..] == row;
    }
  }

  /**
   * The two passes: the latents returned are never empty, and the final
   * pass leaves the result of the first one as it is.
   */
  lemma LatentsNormalForm(latents: seq<PyValue>)
    ensures FirstPass(latents).Ok? ==> |FirstPass(latents).value| >= 1
    ensures FirstPass(latents).Ok? ==> FinalPass(AsPy(FirstPass(latents).value)) == FirstPass(latents)
  {
    var first := FirstPass(latents);
    if first.Ok? {
      CleanRowsOfFloats(first.value);
      assert |AsPy(first.value)| >= 1 && AsPy(first.value)[0].PyList?;
    }
  }

  /** A row holding `None` values, numbers and no nested list is cleaned to its numbers. */
  lemma CleanItemExamples()
    ensures CleanItem(PyNone) == Ok([])
    ensures CleanItem(PyNum(0.5)) == Ok([0.5])
    ensures CleanItem(PyList([PyNum(1.0), PyNone, PyNum(2.0)])) == Ok([1.0, 2.0])
    ensures CleanItem(PyList([PyList([])])) == Err(TypeError)
  {
    var xs3 := [PyNum(1.0), PyNone, PyNum(2.0)];
    var xs2 := [PyNone, PyNum(2.0)];
    var xs1 := [PyNum(2.0)];
    var xs0: seq<PyValue> := [];
    assert xs3[1..] == xs2 && xs2[1..] == xs1 && xs1[1..] == xs0;
    assert Floats(xs0) == Ok([]);
    assert [2.0] + [] == [2.0];
    assert Floats(xs1) == Ok([2.0]);
    assert Floats(xs2) == Ok([2.0]);
    assert [1.0] + [2.0] == [1.0, 2.0];
    assert Floats(xs3) == Ok([1.0, 2.0]);
    assert [PyList([])][0] == PyList([]);
  }

  // ---------------------------------------------------------------- encode

  /** What the processor and the model give back for the normalised audio. */
  datatype ModelOutput = ModelOutput(codes: Option<NdArray<int>>, embeddings: Option<NdArray<real>>)
  {
    predicate Valid() {
      (codes.Some? ==> codes.value.Valid()) && (embeddings.Some? ==> embeddings.value.Valid())
    }
  }

  datatype EncodeResult = EncodeResult(codebookIndices: seq<seq<int>>, latents: seq<seq<real>>,
                                       metadata: Metadata, metrics: Metrics)

  /** The result of `encode` once the model is loaded, in the order its steps can fail. */
  function EncodeOutput(audio: NdArray<real>, sampleRate: int, output: Result<ModelOutput, EncodeError>)
    : (r: Result<EncodeResult, EncodeError>)
    requires audio.Valid() && (output.Ok? ==> output.value.Valid())
  {
    var normalized := NormalizeAudio(audio);
    if normalized.Err? then Err(normalized.error)
    else if output.Err? then Err(output.error)
    else
      var levels := CodebookLevels(output.value.codes);
      if levels.Err? then Err(levels.error)
      else
        var first := FirstPass(EmbeddingRows(output.value.embeddings));
        if first.Err? then Err(first.error)
        else
          var measured := Measure(normalized.value.shape[0], sampleRate, levels.value);
          if measured.Err? then Err(measured.error)
          else
            var final := FinalPass(AsPy(first.value));
            if final.Err? then Err(final.error)
            else Ok(EncodeResult(levels.value, final.value, measured.value.0, measured.value.1))
  }

  /**
   * What the service promises of a successful encode: one index list per
   * codebook, as many frames as the normalised audio has, and latents that
   * are never empty.
   */
  lemma EncodeOutputShape(audio: NdArray<real>, sampleRate: int, output: Result<ModelOutput, EncodeError>)
    requires audio.Valid() && (output.Ok? ==> output.value.Valid())
    ensures var r := EncodeOutput(audio, sampleRate, output);
      r.Ok? ==>
        NormalizeAudio(audio).Ok? &&
        r.value.metadata.numFrames == NormalizeAudio(audio).value.shape[0] &&
        r.value.metadata.numCodebooks == |r.value.codebookIndices| &&
        r.value.metrics.compressedSize == TotalLength(r.value.codebookIndices) &&
        output.Ok? && r.value.codebookIndices == CodebookLevels(output.value.codes).value &&
        r.value.latents == FirstPass(EmbeddingRows(output.value.embeddings)).value &&
        |r.value.latents| >= 1
    ensures sampleRate == 0 ==> EncodeOutput(audio, sampleRate, output).Err?
  {
    if output.Ok? {
      LatentsNormalForm(EmbeddingRows(output.value.embeddings));
    }
  }

  // ---------------------------------------------------------------- decode

  /** All lists the same length, as `torch.tensor` requires. */
  predicate Rectangular(codebookIndices: seq<seq<int>>)
  {
    forall l :: 0 <= l < |codebookIndices| ==> |codebookIndices[l]| == |codebookIndices[0]|
  }

  /** The shapes `decode` hands to the model: the codes tensor and the padding-mask length. */
  function DecodeInput(codebookIndices: seq<seq<int>>): (r: Result<(seq<nat>, nat), EncodeError>)
    ensures r.Err? <==> !Rectangular(codebookIndices)
    ensures r.Ok? && |codebookIndices| > 0 ==>
      r.value.0 == [1, |codebookIndices|, |codebookIndices[0]|] && r.value.1 == |codebookIndices[0]|
    ensures r.Ok? && |codebookIndices| == 0 ==> r.value == ([1, 0], 0)
  {
    if !Rectangular(codebookIndices) then Err(ValueError)
    else if |codebookIndices| == 0 then Ok(([1, 0], 0))
    else Ok(([1, |codebookIndices|, |codebookIndices[0]|], |codebookIndices[0]|))
  }

  // ---------------------------------------------------------------- service

  datatype Processor = Processor(name: string)
  datatype Model = Model(name: string, device: string)

  /** The service object: the model is loaded on first use and then kept. */
  class EncodecService {
    const modelName: string
    const device: string
    var model: Option<Model>
    var processor: Option<Processor>
    var isLoaded: bool

    /** Loaded means both parts are present. */
    ghost predicate Valid()
      reads this
    {
      isLoaded ==> model.Some? && processor.Some?
    }

    constructor (modelName: string, cudaAvailable: bool)
      ensures this.modelName == modelName && device == (if cudaAvailable then "cuda" else "cpu")
      ensures model.None? && processor.None? && !isLoaded && Valid()
    {
      this.modelName := modelName;
      device := if cudaAvailable then "cuda" else "cpu";
      model, processor, isLoaded := None, None, false;
    }

    /** `is_loaded`: a loaded service has both its processor and its model. */
    function IsLoaded(): (loaded: bool)
      reads this
      requires Valid()
      ensures loaded ==> model.Some? && processor.Some?
    {
      isLoaded
    }

    /**
     * What a `load_model` call with these outcomes leaves behind: nothing
     * changes once loaded; otherwise the processor is set when it loads, the
     * model when both load, and the service is loaded only then.
     */
    twostate predicate LoadEffect(processorLoads: bool, modelLoads: bool)
      reads this
    {
      if old(isLoaded) then isLoaded && model == old(model) && processor == old(processor)
      else
        processor == (if processorLoads then Some(Processor(modelName)) else old(processor)) &&
        model == (if processorLoads && modelLoads then Some(Model(modelName, device)) else old(model)) &&
        isLoaded == (processorLoads && modelLoads)
    }

    /**
     * `load_model`: does nothing once loaded; otherwise loads the processor
     * and then the model, and is loaded only when both succeeded.  A
     * processor loaded before the model failed is kept.
     */
    method LoadModel(processorLoads: bool, modelLoads: bool) returns (r: Result<(), EncodeError>)
      requires Valid()
      modifies this
      ensures Valid()
      ensures old(isLoaded) ==> r.Ok? && isLoaded && model == old(model) && processor == old(processor)
      ensures !old(isLoaded) ==> (r.Ok? <==> processorLoads && modelLoads) && (isLoaded <==> r.Ok?)
      ensures !old(isLoaded) && processorLoads ==> processor == Some(Processor(modelName))
      ensures !old(isLoaded) && !processorLoads ==> processor == old(processor) && model == old(model)
      ensures !old(isLoaded) && processorLoads && modelLoads ==> model == Some(Model(modelName, device))
      ensures !old(isLoaded) && processorLoads && !modelLoads ==> model == old(model)
      ensures LoadEffect(processorLoads, modelLoads)
    {
      if isLoaded {
        return Ok(());
      }
      if !processorLoads {
        return Err(LoadFailed);
      }
      processor := Some(Processor(modelName));
      if !modelLoads {
        return Err(LoadFailed);
      }
      model := Some(Model(modelName, device));
      isLoaded := true;
      r := Ok(());
    }

    /**
     * `encode`: loads the model first when needed, then post-processes what
     * the model returned for the normalised audio.
     */
    method Encode(audio: NdArray<real>, sampleRate: int, processorLoads: bool, modelLoads: bool,
                  output: Result<ModelOutput, EncodeError>)
      returns (r: Result<EncodeResult, EncodeError>)
      requires Valid() && audio.Valid() && (output.Ok? ==> output.value.Valid())
      modifies this
      ensures Valid()
      ensures old(isLoaded) || (processorLoads && modelLoads) ==> isLoaded && r == EncodeOutput(audio, sampleRate, output)
      ensures !old(isLoaded) && !(processorLoads && modelLoads) ==> !isLoaded && r == Err(LoadFailed)
      ensures LoadEffect(processorLoads, modelLoads)
    {
      if !isLoaded {
        var loaded := LoadModel(processorLoads, modelLoads);
        if loaded.Err? {
          return Err(LoadFailed);
        }
      }
      var normalized := NormalizeAudio(audio);
      if normalized.Err? {
        return Err(normalized.error);
      }
      if output.Err? {
        return Err(output.error);
      }
      var levels := CodebookIndices(output.value.codes);
      if levels.Err? {
        return Err(levels.error);
      }
      var rows := EmbeddingRows(output.value.embeddings);
      var first: Result<seq<seq<real>>, EncodeError> := Ok([[]]);
      if |rows| > 0 {
        first := CleanLatentRows(rows);
      }
      if first.Err? {
        return Err(first.error);
      }
      var measured := Measure(normalized.value.shape[0], sampleRate, levels.value);
      if measured.Err? {
        return Err(measured.error);
      }
      var final := Ok([[]]);
      var latents := AsPy(first.value);
      if |latents| > 0 {
        var wrapped := if !latents[0].PyList? then [PyList(latents)] else latents;
        final := CleanLatentRows(wrapped);
      }
      if final.Err? {
        return Err(final.error);
      }
      r := Ok(EncodeResult(levels.value, final.value, measured.value.0, measured.value.1));
    }

    /**
     * `decode`: loads the model first when needed; ragged index lists are
     * rejected when the codes tensor is built; otherwise the audio is what
     * the model decodes from `DecodeInput(codebookIndices)`.
     */
    method Decode(codebookIndices: seq<seq<int>>, processorLoads: bool, modelLoads: bool,
                  decoded: Result<seq<real>, EncodeError>)
      returns (r: Result<seq<real>, EncodeError>)
      requires Valid()
      modifies this
      ensures Valid()
      ensures old(isLoaded) || (processorLoads && modelLoads) ==>
        isLoaded && r == (if DecodeInput(codebookIndices).Err? then Err(ValueError) else decoded)
      ensures !old(isLoaded) && !(processorLoads && modelLoads) ==> !isLoaded && r == Err(LoadFailed)
      ensures LoadEffect(processorLoads, modelLoads)
    {
      if !isLoaded {
        var loaded := LoadModel(processorLoads, modelLoads);
        if loaded.Err? {
          return Err(LoadFailed);
        }
      }
      var input := DecodeInput(codebookIndices);
      if input.Err? {
        return Err(ValueError);
      }
      r := decoded;
    }
  }
}

=== FILE: JsMath.dfy ===
/**
 * The `Math` operations the modelled code applies to sample values, times and
 * parameters, on exact reals: `Math.max`, `Math.min`, `Math.floor`,
 * `Math.round`, truncation toward zero (`ToInt16` and friends) and the
 * `Math.max(lo, Math.min(hi, x))` clamp idiom.
 */
module JsMath {

  function Max(a: real, b: real): real { if a < b then b else a }

  function Min(a: real, b: real): real { if a < b then a else b }

  /** `Math.max(lo, Math.min(hi, x))`; when `lo > hi` the result is `lo`. */
  function Clamp(x: real, lo: real, hi: real): (r: real)
    ensures lo <= hi ==> lo <= r <= hi
    ensures lo <= x <= hi ==> r == x
    ensures lo <= hi && x <= lo ==> r == lo
    ensures lo <= hi && hi <= x ==> r == hi
  {
    Max(lo, Min(hi, x))
  }

  /** `Math.floor`. */
  function Floor(x: real): int { x.Floor }

  /** Truncation toward zero, as `ToInt16`, `ToUint32` and `%` perform it. */
  function Trunc(x: real): (r: int)
    ensures 0.0 <= x ==> 0 <= r && r as real <= x < r as real + 1.0
    ensures x < 0.0 ==> r <= 0 && r as real - 1.0 < x <= r as real
  {
    if x < 0.0 then -((-x).Floor) else x.Floor
  }

  /** `Math.round`: the nearest integer, halves rounded up. */
  function Round(x: real): int { (x + 0.5).Floor }
}

=== FILE: LiveEffects.dfy ===
/**
 * The parameter bookkeeping of the `useLiveEffects` hook: three effect nodes
 * (gain, low-pass filter, stereo panner) that exist only after setup, and two
 * snapshots of the user's settings, the values last committed ("original")
 * and the values currently applied ("current").
 */
module LiveEffects {
  import opened JsMath
  import opened Wrappers

  /** The `{volume, cutoff, pan}` record both snapshots hold. */
  datatype EffectValues = EffectValues(volume: real, cutoff: real, pan: real)

  /** Neutral settings: unit gain, filter fully open, centred. */
  const Defaults := EffectValues(1.0, 20000.0, 0.0)

  /** The frequency the filter node is given for a requested cutoff. */
  function NodeCutoff(cutoff: real): real { Clamp(cutoff, 20.0, 20000.0) }

  /** The pan the panner node is given for a requested pan. */
  function NodePan(pan: real): real { Clamp(pan, -1.0, 1.0) }

  class LiveEffects {
    /** The value of each node's parameter; `None` while the node does not exist. */
    var gain: Option<real>
    var filter: Option<real>
    var panner: Option<real>
    var originalValues: EffectValues
    var currentValues: EffectValues

    /** Setup creates the three nodes together, and the nodes only ever hold clamped values. */
    ghost predicate Valid()
      reads this
    {
      gain.Some? == filter.Some? == panner.Some? &&
      (filter.Some? ==> 20.0 <= filter.value <= 20000.0) &&
      (panner.Some? ==> -1.0 <= panner.value <= 1.0)
    }

    /** Once the nodes exist, they carry the current values. */
    ghost predicate InSync()
      reads this
    {
      gain.Some? ==> gain == Some(currentValues.volume) &&
                     filter == Some(NodeCutoff(currentValues.cutoff)) &&
                     panner == Some(NodePan(currentValues.pan))
    }

    /** Some current value differs from its original one (`!==`, field by field). */
    predicate HasChanges()
      reads this
    {
      currentValues.volume != originalValues.volume ||
      currentValues.cutoff != originalValues.cutoff ||
      currentValues.pan != originalValues.pan
    }

    /** A copy of the current values. */
    function GetCurrentValues(): EffectValues
      reads this
    {
      currentValues
    }

    /** A copy of the original values. */
    function GetOriginalValues(): EffectValues
      reads this
    {
      originalValues
    }

    /** The state the hook starts in: no nodes, both snapshots neutral. */
    constructor ()
      ensures gain.None? && filter.None? && panner.None?
      ensures originalValues == Defaults && currentValues == Defaults
      ensures Valid() && InSync() && !HasChanges()
    {
      gain, filter, panner := None, None, None;
      originalValues, currentValues := Defaults, Defaults;
    }

    /**
     * Node creation once the audio context is available: every node starts
     * neutral.  Neither snapshot is touched, so when setup runs again after
     * the settings changed, the nodes no longer carry the current values.
     */
    method Setup()
      modifies this
      ensures gain == Some(Defaults.volume) && filter == Some(Defaults.cutoff) && panner == Some(Defaults.pan)
      ensures currentValues == old(currentValues) && originalValues == old(originalValues)
      ensures Valid()
      ensures old(currentValues) == Defaults ==> InSync()
    {
      gain, filter, panner := Some(1.0), Some(20000.0), Some(0.0);
    }

    /** The raw volume goes to the gain node and to the current values; no clamping. */
    method SetVolume(volume: real)
      modifies this
      ensures old(gain).Some? ==> gain == Some(volume) && currentValues == old(currentValues).(volume := volume)
      ensures old(gain).None? ==> gain == old(gain) && currentValues == old(currentValues)
      ensures filter == old(filter) && panner == old(panner) && originalValues == old(originalValues)
      ensures old(Valid()) ==> Valid()
      ensures old(InSync()) ==> InSync()
    {
      if gain.Some? {
        gain := Some(volume);
        currentValues := currentValues.(volume := volume);
      }
    }

    /** The filter node gets the cutoff clamped to [20, 20000]; the raw cutoff is recorded. */
    method SetFilter(cutoff: real)
      modifies this
      ensures old(filter).Some? ==> filter == Some(NodeCutoff(cutoff)) && currentValues == old(currentValues).(cutoff := cutoff)
      ensures old(filter).None? ==> filter == old(filter) && currentValues == old(currentValues)
      ensures gain == old(gain) && panner == old(panner) && originalValues == old(originalValues)
      ensures old(Valid()) ==> Valid()
      ensures old(InSync()) ==> InSync()
    {
      if filter.Some? {
        filter := Some(Max(20.0, Min(20000.0, cutoff)));
        currentValues := currentValues.(cutoff := cutoff);
      }
    }

    /** The panner gets the pan clamped to [-1, 1]; the raw pan is recorded. */
    method SetPan(pan: real)
      modifies this
      ensures old(panner).Some? ==> panner == Some(NodePan(pan)) && currentValues == old(currentValues).(pan := pan)
      ensures old(panner).None? ==> panner == old(panner) && currentValues == old(currentValues)
      ensures gain == old(gain) && filter == old(filter) && originalValues == old(originalValues)
      ensures old(Valid()) ==> Valid()
      ensures old(InSync()) ==> InSync()
    {
      if panner.Some? {
        panner := Some(Max(-1.0, Min(1.0, pan)));
        currentValues := currentValues.(pan := pan);
      }
    }

    /**
     * Re-applies the original values through the three setters.  Once the
     * nodes exist the current values equal the original ones and the nodes
     * carry them; before setup nothing changes.
     */
    method Reset()
      requires Valid()
      modifies this
      ensures Valid() && originalValues == old(originalValues)
      ensures old(gain).Some? ==> currentValues == originalValues && !HasChanges() && InSync()
      ensures old(gain).None? ==> gain == old(gain) && filter == old(filter) && panner == old(panner) && currentValues == old(currentValues)
    {
      SetVolume(originalValues.volume);
      SetFilter(originalValues.cutoff);
      SetPan(originalValues.pan);
    }

    /** The current values become the original ones; nodes are untouched. */
    method Commit()
      modifies this
      ensures GetOriginalValues() == old(GetCurrentValues()) && GetCurrentValues() == old(GetCurrentValues())
      ensures gain == old(gain) && filter == old(filter) && panner == old(panner)
      ensures !HasChanges()
      ensures old(Valid()) ==> Valid()
      ensures old(InSync()) ==> InSync()
    {
      originalValues := currentValues;
    }

    /** Changes are reported exactly when the two snapshots differ. */
    lemma HasChangesIffDiffer()
      ensures HasChanges() <==> currentValues != originalValues
    {
    }
  }

  /** Moving the volume slider from the neutral state to 1.5 is a change. */
  method VolumeChangeExample() returns (effects: LiveEffects)
    ensures effects.HasChanges() && effects.GetCurrentValues().volume == 1.5
    ensures effects.GetOriginalValues() == Defaults
  {
    effects := new LiveEffects();
    effects.Setup();
    effects.SetVolume(1.5);
  }
}

=== FILE: MelSpectrogram.dfy ===
/**
 * The mel-scale helpers of `melSpectrogram.js`: a bank of triangular filters
 * over the FFT bins, its application to one frame of byte magnitudes, and the
 * max-normalisation of the result back into 0..255.  The conversions between
 * hertz and mels are given as function parameters (they are transcendental).
 */
module MelSpectrogram {
  import opened JsMath
  import WavEncoding

  type Byte = WavEncoding.Byte

  // ---------------------------------------------------------------- filter bank

  /** Mel point `i` of `nMelBins + 2` evenly spaced points from `melMin` to `melMax`. */
  function MelPoint(melMin: real, melMax: real, nMelBins: nat, i: nat): real
  {
    melMin + (melMax - melMin) * (i as real / (nMelBins + 1) as real)
  }

  /** The FFT bin a frequency falls in: `Math.floor((hz / nyquist) * fftBins)`. */
  function Bin(hz: real, nyquist: real, fftBins: nat): int
    requires nyquist != 0.0
  {
    Floor((hz / nyquist) * fftBins as real)
  }

  /**
   * Weight of bin `j` in the triangle (left, center, right): rising on
   * [left, center), falling on [center, right), zero elsewhere.
   */
  function Weight(left: int, center: int, right: int, j: int): real
  {
    if left <= j < center then (j - left) as real / (center - left) as real
    else if center <= j < right then 1.0 - (j - center) as real / (right - center) as real
    else 0.0
  }

  /** One filter: the triangle's weights on bins `0 .. fftBins - 1`. */
  function Filter(left: int, center: int, right: int, fftBins: nat): (filter: seq<real>)
    ensures |filter| == fftBins
  {
    seq(fftBins, j requires 0 <= j < fftBins => Weight(left, center, right, j))
  }

  /** The points converted to hertz. */
  function HzPoints(melToHz: real -> real, melMin: real, melMax: real, nMelBins: nat): (hz: seq<real>)
    ensures |hz| == nMelBins + 2
  {
    seq(nMelBins + 2, i requires 0 <= i < nMelBins + 2 => melToHz(MelPoint(melMin, melMax, nMelBins, i)))
  }

  /** Filter `i` of the bank, from hertz points `i`, `i + 1` and `i + 2`. */
  function BankFilter(hzPoints: seq<real>, i: nat, nyquist: real, fftBins: nat): seq<real>
    requires i + 2 < |hzPoints| && nyquist != 0.0
  {
    Filter(Bin(hzPoints[i], nyquist, fftBins), Bin(hzPoints[i + 1], nyquist, fftBins),
           Bin(hzPoints[i + 2], nyquist, fftBins), fftBins)
  }

  /** One filter per consecutive triple of hertz points. */
  function FiltersFrom(hzPoints: seq<real>, nyquist: real, fftBins: nat): (bank: seq<seq<real>>)
    requires 2 <= |hzPoints| && nyquist != 0.0
    ensures |bank| == |hzPoints| - 2
    ensures forall i :: 0 <= i < |bank| ==> |bank[i]| == fftBins
  {
    seq(|hzPoints| - 2, i requires 0 <= i < |hzPoints| - 2 => BankFilter(hzPoints, i, nyquist, fftBins))
  }

  /** The bank `createMelFilterBank` builds. */
  function MelFilterBank(fftSize: nat, sampleRate: nat, nMelBins: nat,
                         hzToMel: real -> real, melToHz: real -> real): (bank: seq<seq<real>>)
    requires sampleRate > 0
    ensures |bank| == nMelBins
    ensures forall i :: 0 <= i < nMelBins ==> |bank[i]| == fftSize / 2
  {
    var nyquist := sampleRate as real / 2.0;
    FiltersFrom(HzPoints(melToHz, hzToMel(0.0), hzToMel(nyquist), nMelBins), nyquist, fftSize / 2)
  }

  /** The points are evenly spaced, the first is `melMin` and the last `melMax`. */
  lemma MelPointsSpan(melMin: real, melMax: real, nMelBins: nat, i: nat)
    requires i <= nMelBins
    ensures MelPoint(melMin, melMax, nMelBins, 0) == melMin
    ensures MelPoint(melMin, melMax, nMelBins, nMelBins + 1) == melMax
    ensures MelPoint(melMin, melMax, nMelBins, i + 1) - MelPoint(melMin, melMax, nMelBins, i)
            == (melMax - melMin) / (nMelBins + 1) as real
  {
    var n := (nMelBins + 1) as real;
    assert (nMelBins + 1) as real / n == 1.0;
    assert (i + 1) as real / n - i as real / n == 1.0 / n;
    calc {
      MelPoint(melMin, melMax, nMelBins, i + 1) - MelPoint(melMin, melMax, nMelBins, i);
      (melMax - melMin) * ((i + 1) as real / n) - (melMax - melMin) * (i as real / n);
      (melMax - melMin) * ((i + 1) as real / n - i as real / n);
      (melMax - melMin) * (1.0 / n);
    }
  }

  /** Every weight lies in [0, 1]; the ramps divide only by positive widths. */
  lemma WeightRange(left: int, center: int, right: int, j: int)
    ensures 0.0 <= Weight(left, center, right, j) <= 1.0
  {
    if left <= j < center {
      UnitRatio((j - left) as real, (center - left) as real);
    } else if center <= j < right {
      UnitRatio((j - center) as real, (right - center) as real);
    }
  }

  /** A ratio of a non-negative number to a larger positive one lies in [0, 1]. */
  lemma UnitRatio(x: real, d: real)
    requires 0.0 <= x <= d && 0.0 < d
    ensures 0.0 <= x / d <= 1.0
    ensures x < d ==> x / d < 1.0
  {
    var q := x / d;
    assert q * d == x;
    assert (1.0 - q) * d == d - x;
  }

  /** The center bin has weight 1 unless the falling side is empty; bins outside [left, right) have weight 0. */
  lemma WeightShape(left: int, center: int, right: int, j: int)
    ensures center < right ==> Weight(left, center, right, center) == 1.0
    ensures center == right && left < center ==> Weight(left, center, right, center) == 0.0
    ensures left <= center <= right && (j < left || right <= j) ==> Weight(left, center, right, j) == 0.0
    ensures left <= j < center ==> Weight(left, center, right, j) < 1.0
  {
    if left <= j < center {
      UnitRatio((j - left) as real, (center - left) as real);
    }
  }

  /** `new Float32Array(fftBins)` filled by the two ramp loops. */
  method TriangularFilter(leftBin: int, centerBin: int, rightBin: int, fftBins: nat) returns (filter: seq<real>)
    ensures filter == Filter(leftBin, centerBin, rightBin, fftBins)
  {
    var a := new real[fftBins](_ => 0.0);
    var j := leftBin;
    while j < centerBin
      invariant leftBin <= j && (j <= centerBin || j == leftBin)
      invariant forall k :: 0 <= k < fftBins ==>
        a[k] == if leftBin <= k < j then Weight(leftBin, centerBin, rightBin, k) else 0.0
      decreases centerBin - j
    {
      if j >= 0 && j < fftBins {
        a[j] := (j - leftBin) as real / (centerBin - leftBin) as real;
      }
      j := j + 1;
    }
    assert forall k :: 0 <= k < fftBins ==>
      a[k] == if leftBin <= k < centerBin then Weight(leftBin, centerBin, rightBin, k) else 0.0;
    j := centerBin;
    while j < rightBin
      invariant centerBin <= j && (j <= rightBin || j == centerBin)
      invariant forall k :: 0 <= k < fftBins ==>
        a[k] == if leftBin <= k < centerBin || centerBin <= k < j then Weight(leftBin, centerBin, rightBin, k) else 0.0
      decreases rightBin - j
    {
      if j >= 0 && j < fftBins {
        a[j] := 1.0 - (j - centerBin) as real / (rightBin - centerBin) as real;
      }
      j := j + 1;
    }
    filter := a[..];
  }

  /** The mel points, pushed one by one. */
  method MelPoints(melMin: real, melMax: real, nMelBins: nat) returns (melPoints: seq<real>)
    ensures |melPoints| == nMelBins + 2
    ensures forall i :: 0 <= i < nMelBins + 2 ==> melPoints[i] == MelPoint(melMin, melMax, nMelBins, i)
  {
    melPoints := [];
    var i := 0;
    while i <= nMelBins + 1
      invariant 0 <= i <= nMelBins + 2 && |melPoints| == i
      invariant forall k :: 0 <= k < i ==> melPoints[k] == MelPoint(melMin, melMax, nMelBins, k)
    {
      melPoints := melPoints + [melMin + (melMax - melMin) * (i as real / (nMelBins + 1) as real)];
      i := i + 1;
    }
  }

  /**
   * `createMelFilterBank(fftSize, sampleRate, nMelBins)`: `nMelBins` filters
   * of `fftSize / 2` weights each.  An odd `fftSize` makes the typed-array
   * allocation throw, so it is excluded.
   */
  method CreateMelFilterBank(fftSize: nat, sampleRate: nat, nMelBins: nat,
                             hzToMel: real -> real, melToHz: real -> real)
    returns (filterBank: seq<seq<real>>)
    requires fftSize % 2 == 0 && sampleRate > 0
    ensures filterBank == MelFilterBank(fftSize, sampleRate, nMelBins, hzToMel, melToHz)
  {
    var fftBins := fftSize / 2;
    var nyquist := sampleRate as real / 2.0;
    var melMin := hzToMel(0.0);
    var melMax := hzToMel(nyquist);
    var melPoints := MelPoints(melMin, melMax, nMelBins);
    var hzPoints := seq(|melPoints|, k requires 0 <= k < |melPoints| => melToHz(melPoints[k]));
    assert hzPoints == HzPoints(melToHz, melMin, melMax, nMelBins);
    filterBank := [];
    for i := 0 to nMelBins
      invariant |filterBank| == i
      invariant filterBank == FiltersFrom(hzPoints, nyquist, fftBins)[..i]
    {
      var leftBin := Bin(hzPoints[i], nyquist, fftBins);
      var centerBin := Bin(hzPoints[i + 1], nyquist, fftBins);
      var rightBin := Bin(hzPoints[i + 2], nyquist, fftBins);
      var filter := TriangularFilter(leftBin, centerBin, rightBin, fftBins);
      filterBank := filterBank + [filter];
      assert filterBank[i] == FiltersFrom(hzPoints, nyquist, fftBins)[i];
    }
  }

  // ---------------------------------------------------------------- application

  /** `Σ_{j < n} data[j] / 255 · filter[j]`. */
  function WeightedSum(fftData: seq<Byte>, filter: seq<real>, n: nat): real
    requires n <= |fftData| && n <= |filter|
  {
    if n == 0 then 0.0
    else WeightedSum(fftData, filter, n - 1) + (fftData[n - 1] as real / 255.0) * filter[n - 1]
  }

  /** The energy of one mel bin: the weighted sum over the bins both sequences have. */
  function MelEnergy(fftData: seq<Byte>, filter: seq<real>): real
  {
    WeightedSum(fftData, filter, if |fftData| < |filter| then |fftData| else |filter|)
  }

  /** With weights in [0, 1] every partial sum lies in [0, n]. */
  lemma {:induction false} WeightedSumBounds(fftData: seq<Byte>, filter: seq<real>, n: nat)
    requires n <= |fftData| && n <= |filter|
    requires forall j :: 0 <= j < n ==> 0.0 <= filter[j] <= 1.0
    ensures 0.0 <= WeightedSum(fftData, filter, n) <= n as real
  {
    if n > 0 {
      WeightedSumBounds(fftData, filter, n - 1);
      var m := fftData[n - 1] as real / 255.0;
      assert 0.0 <= m <= 1.0;
      assert 0.0 <= m * filter[n - 1] <= 1.0 * 1.0 by {
        assert m * filter[n - 1] <= 1.0 * filter[n - 1];
      }
    }
  }

  /** A bank built by `MelFilterBank` has only weights in [0, 1]. */
  lemma BankWeights(bank: seq<seq<real>>, fftSize: nat, sampleRate: nat, nMelBins: nat,
                    hzToMel: real -> real, melToHz: real -> real, i: nat, j: nat)
    requires sampleRate > 0 && bank == MelFilterBank(fftSize, sampleRate, nMelBins, hzToMel, melToHz)
    requires i < nMelBins && j < fftSize / 2
    ensures 0.0 <= bank[i][j] <= 1.0
  {
    var nyquist := sampleRate as real / 2.0;
    var hz := HzPoints(melToHz, hzToMel(0.0), hzToMel(nyquist), nMelBins);
    var f := fftSize / 2;
    WeightRange(Bin(hz[i], nyquist, f), Bin(hz[i + 1], nyquist, f), Bin(hz[i + 2], nyquist, f), j);
  }

  /**
   * `applyMelFilterBank`: one energy per filter, each accumulated over the
   * bins present in both the frame and the filter.
   */
  method ApplyMelFilterBank(fftData: seq<Byte>, melFilterBank: seq<seq<real>>) returns (melData: seq<real>)
    ensures |melData| == |melFilterBank|
    ensures forall i :: 0 <= i < |melFilterBank| ==> melData[i] == MelEnergy(fftData, melFilterBank[i])
  {
    var nMelBins := |melFilterBank|;
    var a := new real[nMelBins](_ => 0.0);
    for i := 0 to nMelBins
      invariant forall k :: 0 <= k < i ==> a[k] == MelEnergy(fftData, melFilterBank[k])
    {
      var sum := 0.0;
      var filter := melFilterBank[i];
      var j := 0;
      while j < |fftData| && j < |filter|
        invariant 0 <= j <= |fftData| && j <= |filter|
        invariant sum == WeightedSum(fftData, filter, j)
      {
        var magnitude := fftData[j] as real / 255.0;
        sum := sum + magnitude * filter[j];
        j := j + 1;
      }
      a[i] := sum;
    }
    melData := a[..];
  }

  /** Applied to a bank of weights in [0, 1], every energy is non-negative and at most the bin count. */
  lemma MelEnergyBounds(fftData: seq<Byte>, filter: seq<real>)
    requires forall j :: 0 <= j < |filter| ==> 0.0 <= filter[j] <= 1.0
    ensures 0.0 <= MelEnergy(fftData, filter) <= |filter| as real
  {
    WeightedSumBounds(fftData, filter, if |fftData| < |filter| then |fftData| else |filter|);
  }

  // ---------------------------------------------------------------- normalisation

  /** The running maximum of the first `n` entries, starting from 0. */
  function MaxFrom0(melData: seq<real>, n: nat): (m: real)
    requires n <= |melData|
    ensures 0.0 <= m
    ensures forall i :: 0 <= i < n ==> melData[i] <= m
    ensures m == 0.0 || exists i :: 0 <= i < n && melData[i] == m
  {
    if n == 0 then 0.0
    else if melData[n - 1] > MaxFrom0(melData, n - 1) then melData[n - 1]
    else MaxFrom0(melData, n - 1)
  }

  /** `255 / max` for a positive max, otherwise 1. */
  function Scale(max: real): real
  {
    if max > 0.0 then 255.0 / max else 1.0
  }

  /** `Math.min(255, Math.max(0, Math.round(x * scale)))`. */
  function Normalized(x: real, scale: real): (b: Byte)
  {
    var r := Round(x * scale);
    if r < 0 then 0 else if r > 255 then 255 else r
  }

  /** `normalizeMelData`: every entry rescaled so that the largest positive one becomes 255. */
  method NormalizeMelData(melData: seq<real>) returns (normalized: seq<Byte>)
    ensures |normalized| == |melData|
    ensures forall i :: 0 <= i < |melData| ==>
      normalized[i] == Normalized(melData[i], Scale(MaxFrom0(melData, |melData|)))
  {
    var a := new Byte[|melData|](_ => 0);
    var max := 0.0;
    for i := 0 to |melData|
      invariant max == MaxFrom0(melData, i)
    {
      if melData[i] > max {
        max := melData[i];
      }
    }
    var scale := if max > 0.0 then 255.0 / max else 1.0;
    for i := 0 to |melData|
      invariant forall k :: 0 <= k < i ==> a[k] == Normalized(melData[k], scale)
    {
      a[i] := Normalized(melData[i], scale);
    }
    normalized := a[..];
  }

  /** An entry equal to a positive maximum becomes 255; a negative entry becomes 0. */
  lemma NormalizedExtremes(melData: seq<real>, i: nat)
    requires i < |melData|
    ensures var max := MaxFrom0(melData, |melData|);
      (max > 0.0 && melData[i] == max ==> Normalized(melData[i], Scale(max)) == 255) &&
      (melData[i] < 0.0 ==> Normalized(melData[i], Scale(max)) == 0)
  {
    var max := MaxFrom0(melData, |melData|);
    if max > 0.0 && melData[i] == max {
      assert melData[i] * (255.0 / max) == 255.0;
    }
    if melData[i] < 0.0 {
      assert Scale(max) > 0.0;
      assert melData[i] * Scale(max) < 0.0;
    }
  }

  /** Normalisation keeps the order of the entries. */
  lemma NormalizedMonotonic(x: real, y: real, scale: real)
    requires x <= y && scale > 0.0
    ensures Normalized(x, scale) <= Normalized(y, scale)
  {
    assert x * scale <= y * scale;
  }
}

=== FILE: SpectrogramView.dfy ===
/**
 * The bookkeeping of the spectrogram view: the bounded history of frequency
 * frames that each animation frame may extend, the stride of the bin loop
 * that draws one frame, and the time a click on the canvas seeks to.
 */
module SpectrogramView {
  import opened Wrappers
  import WavEncoding
  import TrimTool

  type Byte = WavEncoding.Byte

  /** The number of frames the history keeps. */
  const MaxHistory: nat := 300

  /**
   * The history after one draw: the frame is appended while playing or when
   * the history is empty, and then the oldest frame is dropped if the
   * history has grown past `maxHistory`.
   */
  function Recorded(frames: seq<seq<Byte>>, frame: seq<Byte>, isPlaying: bool, maxHistory: nat): seq<seq<Byte>>
  {
    var pushed := if isPlaying || |frames| == 0 then frames + [frame] else frames;
    if |pushed| > maxHistory then pushed[1..] else pushed
  }

  /** A history within the bound stays within it. */
  lemma RecordedBounded(frames: seq<seq<Byte>>, frame: seq<Byte>, isPlaying: bool, maxHistory: nat)
    requires |frames| <= maxHistory
    ensures |Recorded(frames, frame, isPlaying, maxHistory)| <= maxHistory
  {
  }

  /**
   * While paused a non-empty history is kept as it is; otherwise the new
   * frame becomes the newest one, and once the history is full the oldest
   * frame is the one dropped.
   */
  lemma RecordedOrder(frames: seq<seq<Byte>>, frame: seq<Byte>, isPlaying: bool, maxHistory: nat)
    requires |frames| <= maxHistory
    ensures !isPlaying && |frames| > 0 ==> Recorded(frames, frame, isPlaying, maxHistory) == frames
    ensures (isPlaying || |frames| == 0) && |frames| < maxHistory ==>
      Recorded(frames, frame, isPlaying, maxHistory) == frames + [frame]
    ensures (isPlaying || |frames| == 0) && |frames| == maxHistory && maxHistory > 0 ==>
      Recorded(frames, frame, isPlaying, maxHistory) == frames[1..] + [frame]
  {
  }

  /** The history of one spectrogram canvas. */
  class History {
    var frames: seq<seq<Byte>>
    const maxHistory: nat

    ghost predicate Valid()
      reads this
    {
      |frames| <= maxHistory
    }

    constructor ()
      ensures frames == [] && maxHistory == MaxHistory && Valid()
    {
      frames := [];
      maxHistory := MaxHistory;
    }

    /** The history part of `drawSpectrogram`: `push` when playing or empty, then at most one `shift`. */
    method Draw(frame: seq<Byte>, isPlaying: bool)
      requires Valid()
      modifies this
      ensures frames == Recorded(old(frames), frame, isPlaying, maxHistory)
      ensures Valid()
    {
      if isPlaying || |frames| == 0 {
        frames := frames + [frame];
      }
      if |frames| > maxHistory {
        frames := frames[1..];
      }
      RecordedBounded(old(frames), frame, isPlaying, maxHistory);
    }
  }

  /** `Math.max(1, Math.floor(bufferLength / 200))`; the quotient is never negative, so the floor is integer division. */
  function BinStep(bufferLength: nat): (step: nat)
    ensures 1 <= step
    ensures bufferLength < 400 ==> step == 1
    ensures 400 <= bufferLength ==> 200 * step <= bufferLength < 200 * (step + 1)
  {
    var f := bufferLength / 200;
    if f < 1 then 1 else f
  }

  /**
   * The bin loop `for (j = 0; j < frameLength; j += binStep)`: it visits
   * every `binStep`-th bin from 0, and it stops after the last one.
   */
  method DrawnBins(frameLength: nat, bufferLength: nat) returns (drawn: seq<nat>)
    ensures forall k :: 0 <= k < |drawn| ==> drawn[k] == k * BinStep(bufferLength) && drawn[k] < frameLength
    ensures frameLength <= |drawn| * BinStep(bufferLength)
  {
    var binStep := BinStep(bufferLength);
    drawn := [];
    var j := 0;
    while j < frameLength
      invariant j == |drawn| * binStep
      invariant forall k :: 0 <= k < |drawn| ==> drawn[k] == k * binStep && drawn[k] < frameLength
      decreases frameLength - j
    {
      drawn := drawn + [j];
      j := j + binStep;
    }
  }

  /**
   * `handleCanvasClick`: nothing without the audio element, before the
   * view is ready or for a zero duration; otherwise the fraction of the
   * canvas width at the click, scaled to the duration.  The click offset is
   * not clamped.
   */
  function SeekTime(hasAudio: bool, isReady: bool, duration: real, x: real, canvasWidth: real): (time: Option<real>)
    requires canvasWidth > 0.0
    ensures time.None? <==> !hasAudio || !isReady || duration == 0.0
    ensures time.Some? && 0.0 <= x <= canvasWidth && 0.0 <= duration ==> 0.0 <= time.value <= duration
    ensures time.Some? && x == canvasWidth ==> time.value == duration
    ensures time.Some? && x == 0.0 ==> time.value == 0.0
  {
    if !hasAudio || !isReady || duration == 0.0 then None
    else
      TrimTool.FractionOfDuration(x, canvasWidth, duration);
      Some((x / canvasWidth) * duration)
  }
}

=== FILE: TimeFormat.dfy ===
/**
 * `formatTime`, the `m:ss` label of the player and spectrogram components
 * (the two components carry identical copies).  JavaScript semantics are
 * written out: the falsy-or-NaN guard, `Math.floor`, the truncating `%`,
 * `Number.prototype.toString` on integers and `padStart(2, '0')`.
 */
module TimeFormat {
  import opened JsMath

  /** The argument: `undefined`, `NaN` or a finite number. */
  datatype Seconds = Undefined | NaN | Num(value: real)

  /** JavaScript's `%` on numbers: the remainder takes the sign of the dividend. */
  function JsRem(x: real, m: real): (r: real)
    requires m > 0.0
    ensures 0.0 <= x ==> 0.0 <= r < m
    ensures x < 0.0 ==> -m < r <= 0.0
  {
    var t := Trunc(x / m);
    if 0.0 <= x then
      ScaleStrict(m, t as real, x);
      x - m * t as real
    else
      assert (-x) / m == -(x / m);
      ScaleStrict(m, -(t as real), -x);
      assert m * -(t as real) == -(m * t as real);
      x - m * t as real
  }

  /** `lo <= x / m < lo + 1` puts `x` between `m * lo` and `m * lo + m`, for positive `m`. */
  lemma ScaleStrict(m: real, lo: real, x: real)
    requires m > 0.0 && lo <= x / m < lo + 1.0
    ensures m * lo <= x < m * lo + m
  {
    var q := x / m;
    assert m * q == x;
    ScaleLower(m, lo, q, x);
    ScaleUpper(m, lo, q, x);
  }

  lemma ScaleLower(m: real, lo: real, q: real, x: real)
    requires m > 0.0 && m * q == x && lo <= q
    ensures m * lo <= x
  {
    var e := q - lo;
    MulNonNegative(m, e);
    assert m * e == m * q - m * lo;
  }

  lemma MulNonNegative(a: real, b: real)
    requires 0.0 <= a && 0.0 <= b
    ensures 0.0 <= a * b
  {
  }

  lemma MulPositive(a: real, b: real)
    requires 0.0 < a && 0.0 < b
    ensures 0.0 < a * b
  {
  }

  lemma ScaleUpper(m: real, lo: real, q: real, x: real)
    requires m > 0.0 && m * q == x && q < lo + 1.0
    ensures x < m * lo + m
  {
    var d := lo + 1.0 - q;
    MulPositive(m, d);
    assert m * d == m * lo + m - m * q;
  }

  predicate IsDigit(c: char) { '0' <= c <= '9' }

  predicate AllDigits(s: string) { forall i :: 0 <= i < |s| ==> IsDigit(s[i]) }

  /** The decimal digits of `n`, most significant first, without leading zeros. */
  function Digits(n: nat): (s: string)
    ensures |s| >= 1 && AllDigits(s)
    decreases n
  {
    if n < 10 then ['0' + n as char]
    else Digits(n / 10) + ['0' + (n % 10) as char]
  }

  /** `String(i)` for an integer. */
  function IntToString(i: int): string
  {
    if i < 0 then "-" + Digits(-i) else Digits(i)
  }

  /** `s.padStart(2, '0')`. */
  function PadStart2(s: string): (r: string)
    ensures |s| < 2 ==> |r| == 2 && r[2 - |s|..] == s && forall i :: 0 <= i < 2 - |s| ==> r[i] == '0'
    ensures |s| >= 2 ==> r == s
  {
    if |s| == 0 then "00" else if |s| == 1 then "0" + s else s
  }

  /** `formatTime(seconds)`. */
  function FormatTime(seconds: Seconds): string
  {
    match seconds
    case Undefined => "0:00"
    case NaN => "0:00"
    case Num(s) =>
      if s == 0.0 then "0:00"
      else
        var mins := Floor(s / 60.0);
        var secs := Floor(JsRem(s, 60.0));
        IntToString(mins) + ":" + PadStart2(IntToString(secs))
  }

  /** The value of a string of decimal digits. */
  function DigitsValue(s: string): nat
    requires AllDigits(s)
  {
    if |s| == 0 then 0 else 10 * DigitsValue(s[..|s| - 1]) + (s[|s| - 1] - '0') as nat
  }

  /** Reading the digits back gives the number. */
  lemma {:induction false} DigitsRoundTrip(n: nat)
    ensures DigitsValue(Digits(n)) == n
    decreases n
  {
    if n >= 10 {
      var s := Digits(n);
      assert s[..|s| - 1] == Digits(n / 10);
      DigitsRoundTrip(n / 10);
    }
  }

  /** Leading zeros do not change the value. */
  lemma {:induction false} LeadingZero(s: string)
    requires AllDigits(s)
    ensures AllDigits("0" + s) && DigitsValue("0" + s) == DigitsValue(s)
    decreases |s|
  {
    if |s| > 0 {
      assert ("0" + s)[..|"0" + s| - 1] == "0" + s[..|s| - 1];
      LeadingZero(s[..|s| - 1]);
    }
  }

  /** Splitting a positive time into whole minutes and the seconds left over. */
  lemma MinutesAndSeconds(s: real)
    requires s > 0.0
    ensures Floor(s / 60.0) >= 0
    ensures 0 <= Floor(JsRem(s, 60.0)) < 60
    ensures 60 * Floor(s / 60.0) + Floor(JsRem(s, 60.0)) == Floor(s)
  {
    var q := Floor(s / 60.0);
    assert Trunc(s / 60.0) == q;
    var r := JsRem(s, 60.0);
    assert r == s - 60.0 * q as real;
    assert q as real <= s / 60.0 < q as real + 1.0;
    assert 60.0 * (s / 60.0) == s;
    var f := Floor(s);
    assert (f - 60 * q) as real <= r < (f - 60 * q) as real + 1.0;
  }

  /** "0:00" for `undefined`, `NaN` and 0. */
  lemma FormatTimeFalsy()
    ensures FormatTime(Undefined) == "0:00" && FormatTime(NaN) == "0:00" && FormatTime(Num(0.0)) == "0:00"
  {
  }

  /** The label of `mins` minutes and `secs` seconds reads back as those two numbers. */
  lemma {:induction false} LabelFields(mins: nat, secs: nat)
    requires secs < 60
    ensures var out := Digits(mins) + ":" + PadStart2(Digits(secs)); var i := |out| - 3;
      0 < i && out[i] == ':' && AllDigits(out[..i]) && AllDigits(out[i + 1..]) &&
      DigitsValue(out[..i]) == mins && DigitsValue(out[i + 1..]) == secs
  {
    var mm, ss := Digits(mins), PadStart2(Digits(secs));
    var out := mm + ":" + ss;
    DigitsRoundTrip(mins);
    DigitsRoundTrip(secs);
    if secs < 10 {
      assert |Digits(secs)| == 1;
      LeadingZero(Digits(secs));
      assert ss == "0" + Digits(secs);
    } else {
      assert Digits(secs) == Digits(secs / 10) + ['0' + (secs % 10) as char];
      assert |Digits(secs)| == 2;
    }
    var i := |out| - 3;
    assert |ss| == 2 && i == |mm|;
    assert out[..i] == mm && out[i + 1..] == ss;
  }

  /**
   * For a positive time the label is minutes, a colon and exactly two
   * digits of seconds below 60, and reading it back gives the whole seconds.
   */
  lemma FormatTimePositive(s: real)
    requires s > 0.0
    ensures var out := FormatTime(Num(s)); var i := |out| - 3;
      0 < i && out[i] == ':' && AllDigits(out[..i]) && AllDigits(out[i + 1..]) &&
      DigitsValue(out[i + 1..]) < 60 &&
      DigitsValue(out[..i]) == Floor(s / 60.0) &&
      60 * DigitsValue(out[..i]) + DigitsValue(out[i + 1..]) == Floor(s)
  {
    MinutesAndSeconds(s);
    var mins, secs := Floor(s / 60.0), Floor(JsRem(s, 60.0));
    assert FormatTime(Num(s)) == Digits(mins) + ":" + PadStart2(Digits(secs));
    LabelFields(mins, secs);
  }

  /** A negative time keeps JavaScript's signs: half a second before zero reads "-1:-1". */
  lemma FormatTimeNegative()
    ensures FormatTime(Num(-0.5)) == "-1:-1"
  {
    assert Floor(-0.5 / 60.0) == -1;
    assert JsRem(-0.5, 60.0) == -0.5;
  }
}

=== FILE: TrimTool.dfy ===
/**
 * The selection logic of the trim tool: a start and an end time that the
 * markers, the numeric inputs and a change of clip duration update, and the
 * validation `handleTrim` applies before asking for the trim.
 */
module TrimTool {
  import opened JsMath
  import opened Wrappers

  /** The shortest selection that may be trimmed, in seconds. */
  const MinSelection: real := 0.1

  /** `handleTrim`'s bounds: the start clamped to [0, duration], the end to [start, duration]. */
  function TrimBounds(trimStart: real, trimEnd: real, duration: real): (r: (real, real))
    ensures 0.0 <= duration ==> 0.0 <= r.0 <= r.1 <= duration
    ensures 0.0 <= trimStart <= trimEnd <= duration ==> r == (trimStart, trimEnd)
  {
    var start := Max(0.0, Min(trimStart, duration));
    (start, Max(start, Min(trimEnd, duration)))
  }

  /** A clamped selection is trimmed only when it spans at least `MinSelection`. */
  predicate LongEnough(bounds: (real, real))
  {
    bounds.1 - bounds.0 >= MinSelection
  }

  /**
   * The time under the cursor: its offset clamped to the waveform, scaled to
   * the duration.  A waveform narrower than its padding has a negative
   * width; the offset then clamps to 0 and so does the time.
   */
  function CursorTime(offsetX: real, waveformWidth: real, duration: real): (time: real)
    requires waveformWidth != 0.0
    ensures 0.0 <= duration ==> 0.0 <= time <= duration
    ensures offsetX <= 0.0 || waveformWidth < 0.0 ==> time == 0.0
    ensures 0.0 < waveformWidth <= offsetX ==> time == duration
  {
    var x := Max(0.0, Min(offsetX, waveformWidth));
    FractionOfDuration(x, waveformWidth, duration);
    (x / waveformWidth) * duration
  }

  /** A point of the waveform, as a fraction of its width, scales the duration down. */
  lemma FractionOfDuration(x: real, width: real, duration: real)
    requires width != 0.0
    ensures 0.0 <= x <= width ==> 0.0 <= x / width <= 1.0
    ensures x == 0.0 ==> (x / width) * duration == 0.0
    ensures x == width ==> (x / width) * duration == duration
    ensures 0.0 <= x <= width && 0.0 <= duration ==> 0.0 <= (x / width) * duration <= duration
  {
    var p := x / width;
    assert p * width == x;
    if x == width {
      assert p == 1.0;
    }
    if 0.0 <= x <= width && 0.0 <= duration {
      assert 0.0 <= (1.0 - p) * duration;
      assert 0.0 <= p * duration;
    }
  }

  /** A new start: never negative, and at least `MinSelection` before the end when that is possible. */
  function DraggedStart(time: real, trimEnd: real): (start: real)
    ensures 0.0 <= start
    ensures trimEnd >= MinSelection ==> start <= trimEnd - MinSelection
    ensures 0.0 <= time <= trimEnd - MinSelection ==> start == time
  {
    Max(0.0, Min(time, trimEnd - MinSelection))
  }

  /** A new end: at least `MinSelection` after the start, and within the clip when that is possible. */
  function DraggedEnd(time: real, trimStart: real, duration: real): (end: real)
    ensures trimStart + MinSelection <= end
    ensures trimStart + MinSelection <= duration ==> end <= duration
    ensures trimStart + MinSelection <= time <= duration ==> end == time
  {
    Max(trimStart + MinSelection, Min(time, duration))
  }

  /** `parseFloat(text) || 0`: an unparsable text (`None`) and 0 both give 0. */
  function StartInput(parsed: Option<real>): (val: real)
    ensures parsed.Some? ==> val == parsed.value
    ensures parsed.None? ==> val == 0.0
  {
    if parsed.None? || parsed.value == 0.0 then 0.0 else parsed.value
  }

  /** `parseFloat(text) || duration`: an unparsable text and a typed 0 both give the duration. */
  function EndInput(parsed: Option<real>, duration: real): (val: real)
    ensures parsed.None? || parsed.value == 0.0 ==> val == duration
    ensures parsed.Some? && parsed.value != 0.0 ==> val == parsed.value
  {
    if parsed.None? || parsed.value == 0.0 then duration else parsed.value
  }

  datatype Marker = StartMarker | EndMarker

  class TrimTool {
    var duration: real
    var trimStart: real
    var trimEnd: real
    var isTrimming: bool

    /**
     * Once the clip is at least `MinSelection` long, the selection lies in the
     * clip and spans at least `MinSelection`; the start is never negative.
     */
    ghost predicate Valid()
      reads this
    {
      0.0 <= trimStart &&
      (duration >= MinSelection ==> trimStart + MinSelection <= trimEnd <= duration)
    }

    /** Mounting: the whole clip is selected and no trim is running. */
    constructor (duration: real)
      requires 0.0 <= duration
      ensures this.duration == duration && trimStart == 0.0 && trimEnd == duration && !isTrimming
      ensures Valid()
    {
      this.duration := duration;
      trimStart, trimEnd, isTrimming := 0.0, duration, false;
    }

    /** A new clip duration: a positive one selects the whole clip again. */
    method OnDurationChange(newDuration: real)
      requires Valid()
      modifies this
      ensures duration == newDuration && isTrimming == old(isTrimming)
      ensures newDuration > 0.0 ==> trimStart == 0.0 && trimEnd == newDuration
      ensures newDuration <= 0.0 ==> trimStart == old(trimStart) && trimEnd == old(trimEnd)
      ensures Valid()
    {
      duration := newDuration;
      if newDuration > 0.0 {
        trimEnd := newDuration;
        trimStart := 0.0;
      }
    }

    /** `handleTrimMarkerDrag`: moves one marker to the time under the cursor. */
    method DragMarker(marker: Marker, offsetX: real, waveformWidth: real)
      requires Valid() && waveformWidth != 0.0 && 0.0 <= duration
      modifies this
      ensures marker == StartMarker ==>
        trimStart == DraggedStart(CursorTime(offsetX, waveformWidth, duration), old(trimEnd)) && trimEnd == old(trimEnd)
      ensures marker == EndMarker ==>
        trimEnd == DraggedEnd(CursorTime(offsetX, waveformWidth, duration), old(trimStart), duration) && trimStart == old(trimStart)
      ensures marker == EndMarker ==> trimEnd >= trimStart + MinSelection
      ensures duration == old(duration) && isTrimming == old(isTrimming)
      ensures Valid()
    {
      var time := CursorTime(offsetX, waveformWidth, duration);
      if marker == StartMarker {
        trimStart := Max(0.0, Min(time, trimEnd - MinSelection));
      } else {
        trimEnd := Max(trimStart + MinSelection, Min(time, duration));
      }
    }

    /** The start input's `onChange`. */
    method InputStart(parsed: Option<real>)
      requires Valid()
      modifies this
      ensures trimStart == DraggedStart(StartInput(parsed), old(trimEnd))
      ensures trimEnd == old(trimEnd) && duration == old(duration) && isTrimming == old(isTrimming)
      ensures Valid()
    {
      var val := if parsed.None? || parsed.value == 0.0 then 0.0 else parsed.value;
      trimStart := Max(0.0, Min(val, trimEnd - MinSelection));
    }

    /** The end input's `onChange`. */
    method InputEnd(parsed: Option<real>)
      requires Valid()
      modifies this
      ensures trimEnd == DraggedEnd(EndInput(parsed, duration), old(trimStart), duration)
      ensures trimEnd >= trimStart + MinSelection
      ensures trimStart == old(trimStart) && duration == old(duration) && isTrimming == old(isTrimming)
      ensures Valid()
    {
      var val := if parsed.None? || parsed.value == 0.0 then duration else parsed.value;
      trimEnd := Max(trimStart + MinSelection, Min(val, duration));
    }

    /**
     * The synchronous part of `handleTrim`: nothing happens without a clip or
     * while a trim runs, and a selection shorter than `MinSelection` is
     * rejected.  Otherwise the trim of the clamped bounds is requested and
     * `isTrimming` is set until `FinishTrim`.
     */
    method BeginTrim(hasAudio: bool) returns (request: Option<(real, real)>)
      modifies this
      ensures var bounds := TrimBounds(old(trimStart), old(trimEnd), duration);
        request.Some? <==> hasAudio && !old(isTrimming) && LongEnough(bounds)
      ensures request.Some? ==> request.value == TrimBounds(trimStart, trimEnd, duration) && isTrimming
      ensures request.None? ==> isTrimming == old(isTrimming)
      ensures trimStart == old(trimStart) && trimEnd == old(trimEnd) && duration == old(duration)
    {
      if !hasAudio || isTrimming {
        return None;
      }
      var start := Max(0.0, Min(trimStart, duration));
      var end := Max(start, Min(trimEnd, duration));
      if end - start < MinSelection {
        return None;
      }
      isTrimming := true;
      request := Some((start, end));
    }

    /**
     * The end of the awaited trim: `isTrimming` is cleared whether the trim
     * succeeded or failed, and the trimmed clip is handed on only on success.
     */
    method FinishTrim(succeeded: bool, hasCallback: bool) returns (notified: bool)
      modifies this
      ensures !isTrimming
      ensures notified <==> succeeded && hasCallback
      ensures trimStart == old(trimStart) && trimEnd == old(trimEnd) && duration == old(duration)
    {
      notified := succeeded && hasCallback;
      isTrimming := false;
    }
  }
}

=== FILE: WavEncoding.dfy ===
/**
 * `audioBufferToWav`: serialises a buffer as a canonical RIFF/WAVE file, a
 * 44-byte header followed by 16-bit little-endian PCM samples interleaved
 * frame by frame.  `WavBytes` is the file as a value; the method
 * `AudioBufferToWav` writes it into a fresh byte array the way the code
 * writes through a `DataView`; the lemmas read the header fields and the
 * samples back.
 */
module WavEncoding {
  import opened JsMath
  import opened AudioBuffers

  type Byte = b: int | 0 <= b < 256

  const HeaderSize: nat := 44
  const BytesPerSample: nat := 2

  /** `setUint16(_, v, true)` and `setInt16(_, v, true)`: `v` modulo 2^16, low byte first. */
  function U16Le(v: int): (r: seq<Byte>)
    ensures |r| == 2
  {
    var m := v % 0x1_0000;
    [m % 256, m / 256]
  }

  /** `setUint32(_, v, true)`: `v` modulo 2^32, low byte first. */
  function U32Le(v: int): (r: seq<Byte>)
    ensures |r| == 4
  {
    var m := v % 0x1_0000_0000;
    [m % 256, (m / 256) % 256, (m / 0x1_0000) % 256, m / 0x100_0000]
  }

  /** The character codes `writeString` stores, one byte per character. */
  function Ascii(s: string): (r: seq<Byte>)
    requires forall k :: 0 <= k < |s| ==> s[k] as int < 256
    ensures |r| == |s|
  {
    seq(|s|, k requires 0 <= k < |s| => s[k] as int)
  }

  /** Unsigned little-endian 16-bit field at `at`. */
  function ReadU16(w: seq<Byte>, at: nat): int
    requires at + 2 <= |w|
  {
    w[at] as int + 256 * (w[at + 1] as int)
  }

  /** Signed (two's complement) little-endian 16-bit field at `at`. */
  function ReadI16(w: seq<Byte>, at: nat): int
    requires at + 2 <= |w|
  {
    var u := ReadU16(w, at);
    if u < 0x8000 then u else u - 0x1_0000
  }

  /** Unsigned little-endian 32-bit field at `at`. */
  function ReadU32(w: seq<Byte>, at: nat): int
    requires at + 4 <= |w|
  {
    w[at] as int + 256 * (w[at + 1] as int) + 0x1_0000 * (w[at + 2] as int) + 0x100_0000 * (w[at + 3] as int)
  }

  lemma U16RoundTrip(v: int)
    ensures ReadU16(U16Le(v), 0) == v % 0x1_0000
  {
  }

  lemma I16RoundTrip(v: int)
    requires -0x8000 <= v < 0x8000
    ensures ReadI16(U16Le(v), 0) == v
  {
    U16RoundTrip(v);
  }

  lemma U32RoundTrip(v: int)
    ensures ReadU32(U32Le(v), 0) == v % 0x1_0000_0000
  {
    var m := v % 0x1_0000_0000;
    var q1 := m / 256;
    var q2 := m / 0x1_0000;
    assert q2 == q1 / 256;
    var q3 := m / 0x100_0000;
    assert q3 == q2 / 256;
    assert m == m % 256 + 256 * q1;
    assert q1 == q1 % 256 + 256 * q2;
    assert q2 == q2 % 256 + 256 * q3;
  }

  /**
   * A sample as the 16-bit integer the encoder stores: clamped to [-1, 1],
   * negative values scaled by 32768 and the others by 32767, then truncated
   * toward zero.
   */
  function Pcm16(sample: real): int
  {
    var s := Clamp(sample, -1.0, 1.0);
    if s < 0.0 then Trunc(s * 32768.0) else Trunc(s * 32767.0)
  }

  /** The 16-bit values of frame `i`, one per channel, in channel order. */
  function FrameWords(p: Pcm, i: nat): (r: seq<int>)
    requires p.Valid() && i < p.length
    ensures |r| == p.NumberOfChannels()
  {
    seq(|p.channels|, c requires 0 <= c < |p.channels| => Pcm16(p.channels[c][i]))
  }

  /** The 16-bit values of the first `n` frames, frame-major. */
  function Interleaved(p: Pcm, n: nat): seq<int>
    requires p.Valid() && n <= p.length
  {
    if n == 0 then [] else Interleaved(p, n - 1) + FrameWords(p, n - 1)
  }

  /** Each value as two little-endian bytes, in order. */
  function LeWords(ws: seq<int>): (r: seq<Byte>)
    ensures |r| == 2 * |ws|
  {
    seq(2 * |ws|, j requires 0 <= j < 2 * |ws| => U16Le(ws[j / 2])[j % 2])
  }

  /** "RIFF", the size of the rest of the file, "WAVE". */
  function RiffChunk(bufferSize: int): (r: seq<Byte>)
    ensures |r| == 12
  {
    Ascii("RIFF") + U32Le(bufferSize - 8) + Ascii("WAVE")
  }

  /** The 24-byte "fmt " chunk: 16-bit integer PCM with the given shape. */
  function FmtChunk(numberOfChannels: nat, sampleRate: nat): (r: seq<Byte>)
    ensures |r| == 24
  {
    var blockAlign := numberOfChannels * BytesPerSample;
    var byteRate := sampleRate * blockAlign;
    Ascii("fmt ") + U32Le(16) + U16Le(1) + U16Le(numberOfChannels)
    + U32Le(sampleRate) + U32Le(byteRate) + U16Le(blockAlign) + U16Le(16)
  }

  /** "data" and the number of sample bytes that follow. */
  function DataChunkHeader(dataSize: int): (r: seq<Byte>)
    ensures |r| == 8
  {
    Ascii("data") + U32Le(dataSize)
  }

  /** The 44-byte RIFF/WAVE header, every size field computed from the shape. */
  function Header(numberOfChannels: nat, sampleRate: nat, length: nat): (r: seq<Byte>)
    ensures |r| == HeaderSize
  {
    var dataSize := length * (numberOfChannels * BytesPerSample);
    RiffChunk(HeaderSize + dataSize) + FmtChunk(numberOfChannels, sampleRate) + DataChunkHeader(dataSize)
  }

  /** The whole file `audioBufferToWav` produces for buffer contents `p`. */
  function WavBytes(p: Pcm): seq<Byte>
    requires p.Valid()
  {
    Header(p.NumberOfChannels(), p.sampleRate, p.length) + LeWords(Interleaved(p, p.length))
  }

  // ---------------------------------------------------------------------
  // Arithmetic facts the proofs need.

  lemma MulStep(i: nat, c: nat, n: nat, k: nat)
    requires i < n && c < k
    ensures i * k + c < n * k
  {
    assert (i + 1) * k <= n * k;
  }

  lemma MulTwo(a: nat, b: nat)
    ensures a * (b * 2) == 2 * (a * b)
  {
  }

  lemma MulAssoc(a: nat, b: nat)
    ensures a * b * 2 == a * (b * 2)
  {
  }

  lemma MulMono(i: nat, n: nat, k: nat)
    requires i <= n
    ensures i * k <= n * k
  {
  }

  lemma {:induction false} InterleavedLength(p: Pcm, n: nat)
    requires p.Valid() && n <= p.length
    ensures |Interleaved(p, n)| == n * p.NumberOfChannels()
  {
    if n > 0 {
      InterleavedLength(p, n - 1);
      assert (n - 1) * p.NumberOfChannels() + p.NumberOfChannels() == n * p.NumberOfChannels();
    }
  }

  lemma {:induction false} InterleavedAt(p: Pcm, n: nat, i: nat, c: nat)
    requires p.Valid() && n <= p.length && i < n && c < p.NumberOfChannels()
    ensures i * p.NumberOfChannels() + c < |Interleaved(p, n)|
    ensures Interleaved(p, n)[i * p.NumberOfChannels() + c] == Pcm16(p.channels[c][i])
  {
    var k := p.NumberOfChannels();
    InterleavedLength(p, n);
    InterleavedLength(p, n - 1);
    MulStep(i, c, n, k);
    if i < n - 1 {
      MulStep(i, c, n - 1, k);
      InterleavedAt(p, n - 1, i, c);
    } else {
      assert i * k + c - (n - 1) * k == c;
    }
  }

  lemma LeWordsAppend(ws: seq<int>, w: int)
    ensures LeWords(ws + [w]) == LeWords(ws) + U16Le(w)
  {
    var a, b := LeWords(ws + [w]), LeWords(ws) + U16Le(w);
    forall j | 0 <= j < |a| ensures a[j] == b[j] {
      if j >= 2 * |ws| {
        assert j / 2 == |ws|;
      }
    }
  }

  lemma AppendWord(header: seq<Byte>, done: seq<int>, w: int)
    ensures header + LeWords(done + [w]) == header + LeWords(done) + U16Le(w)
  {
    LeWordsAppend(done, w);
  }

  // ---------------------------------------------------------------------
  // Properties of the file.

  /** The file is the header plus two bytes per sample of every channel. */
  lemma WavLength(p: Pcm)
    requires p.Valid()
    ensures |WavBytes(p)| == HeaderSize + p.length * p.NumberOfChannels() * BytesPerSample
  {
    InterleavedLength(p, p.length);
  }

  lemma RiffChunkLayout(bufferSize: int)
    ensures var r := RiffChunk(bufferSize);
      r[0..4] == Ascii("RIFF") && r[4..8] == U32Le(bufferSize - 8) && r[8..12] == Ascii("WAVE")
  {
  }

  lemma FmtChunkLayout(numberOfChannels: nat, sampleRate: nat)
    ensures var r := FmtChunk(numberOfChannels, sampleRate);
      && r[0..4] == Ascii("fmt ") && r[4..8] == U32Le(16) && r[8..10] == U16Le(1)
      && r[10..12] == U16Le(numberOfChannels) && r[12..16] == U32Le(sampleRate)
      && r[16..20] == U32Le(sampleRate * (numberOfChannels * BytesPerSample))
      && r[20..22] == U16Le(numberOfChannels * BytesPerSample) && r[22..24] == U16Le(16)
  {
    var blockAlign := numberOfChannels * BytesPerSample;
    var byteRate := sampleRate * blockAlign;
    var r := FmtChunk(numberOfChannels, sampleRate);
    var f2 := Ascii("fmt ") + U32Le(16);
    var f3 := f2 + U16Le(1);
    var f4 := f3 + U16Le(numberOfChannels);
    var f5 := f4 + U32Le(sampleRate);
    var f6 := f5 + U32Le(byteRate);
    var f7 := f6 + U16Le(blockAlign);
    assert r == f7 + U16Le(16);
    assert r[22..24] == U16Le(16) && r[..22] == f7;
    assert f7[20..22] == U16Le(blockAlign) && f7[..20] == f6;
    assert f6[16..20] == U32Le(byteRate) && f6[..16] == f5;
    assert f5[12..16] == U32Le(sampleRate) && f5[..12] == f4;
    assert f4[10..12] == U16Le(numberOfChannels) && f4[..10] == f3;
    assert f3[8..10] == U16Le(1) && f3[..8] == f2;
  }

  /** Where the three chunks of the header lie. */
  lemma HeaderChunks(numberOfChannels: nat, sampleRate: nat, length: nat)
    ensures var h := Header(numberOfChannels, sampleRate, length);
      var dataSize := length * (numberOfChannels * BytesPerSample);
      && h[0..12] == RiffChunk(HeaderSize + dataSize)
      && h[12..36] == FmtChunk(numberOfChannels, sampleRate)
      && h[36..44] == DataChunkHeader(dataSize)
  {
  }

  /** A slice of a slice is a slice. */
  lemma SubSlice(w: seq<Byte>, at: nat, s: seq<Byte>, i: nat, j: nat)
    requires at + |s| <= |w| && w[at..at + |s|] == s && i <= j <= |s|
    ensures w[at + i..at + j] == s[i..j]
  {
    forall k | 0 <= k < j - i ensures w[at + i..at + j][k] == s[i..j][k] {
      assert w[at + i..at + j][k] == w[at + i + k] == w[at..at + |s|][i + k];
    }
  }

  /** A field written as `U32Le(v)` reads back as `v` modulo 2^32. */
  lemma ReadU32Field(w: seq<Byte>, at: nat, v: int)
    requires at + 4 <= |w| && w[at..at + 4] == U32Le(v)
    ensures ReadU32(w, at) == v % 0x1_0000_0000
  {
    U32RoundTrip(v);
    assert w[at] == U32Le(v)[0] && w[at + 1] == U32Le(v)[1];
    assert w[at + 2] == U32Le(v)[2] && w[at + 3] == U32Le(v)[3];
  }

  /** A field written as `U16Le(v)` reads back as `v` modulo 2^16. */
  lemma ReadU16Field(w: seq<Byte>, at: nat, v: int)
    requires at + 2 <= |w| && w[at..at + 2] == U16Le(v)
    ensures ReadU16(w, at) == v % 0x1_0000
  {
    U16RoundTrip(v);
    assert w[at] == U16Le(v)[0] && w[at + 1] == U16Le(v)[1];
  }

  /** The tags and the two size fields of a byte string that starts with the header. */
  lemma HeaderSizeFields(w: seq<Byte>, numberOfChannels: nat, sampleRate: nat, length: nat)
    requires HeaderSize <= |w| && w[..HeaderSize] == Header(numberOfChannels, sampleRate, length)
    ensures var dataSize := length * (numberOfChannels * 2);
      && w[0..4] == Ascii("RIFF")
      && ReadU32(w, 4) == (HeaderSize + dataSize - 8) % 0x1_0000_0000
      && w[8..12] == Ascii("WAVE")
      && w[12..16] == Ascii("fmt ")
      && w[36..40] == Ascii("data")
      && ReadU32(w, 40) == dataSize % 0x1_0000_0000
  {
    var dataSize := length * (numberOfChannels * 2);
    var riff, fmt, data := RiffChunk(HeaderSize + dataSize), FmtChunk(numberOfChannels, sampleRate), DataChunkHeader(dataSize);
    HeaderChunks(numberOfChannels, sampleRate, length);
    RiffChunkLayout(HeaderSize + dataSize);
    FmtChunkLayout(numberOfChannels, sampleRate);
    assert w[0..12] == riff && w[12..36] == fmt && w[36..44] == data;
    SubSlice(w, 0, riff, 0, 4);
    SubSlice(w, 0, riff, 8, 12);
    SubSlice(w, 12, fmt, 0, 4);
    SubSlice(w, 36, data, 0, 4);
    SubSlice(w, 0, riff, 4, 8);
    ReadU32Field(w, 4, HeaderSize + dataSize - 8);
    SubSlice(w, 36, data, 4, 8);
    ReadU32Field(w, 40, dataSize);
  }

  /** The format fields of a byte string that starts with the header. */
  lemma HeaderFormatFields(w: seq<Byte>, numberOfChannels: nat, sampleRate: nat, length: nat)
    requires HeaderSize <= |w| && w[..HeaderSize] == Header(numberOfChannels, sampleRate, length)
    ensures
      && ReadU32(w, 16) == 16
      && ReadU16(w, 20) == 1
      && ReadU16(w, 22) == numberOfChannels % 0x1_0000
      && ReadU32(w, 24) == sampleRate % 0x1_0000_0000
      && ReadU32(w, 28) == (sampleRate * (numberOfChannels * 2)) % 0x1_0000_0000
      && ReadU16(w, 32) == (numberOfChannels * 2) % 0x1_0000
      && ReadU16(w, 34) == 16
  {
    var fmt := FmtChunk(numberOfChannels, sampleRate);
    HeaderChunks(numberOfChannels, sampleRate, length);
    assert w[12..36] == fmt;
    FmtFieldsLow(w, numberOfChannels, sampleRate);
    FmtFieldsHigh(w, numberOfChannels, sampleRate);
  }

  /** The first four fields of the fmt chunk at offset 12. */
  lemma FmtFieldsLow(w: seq<Byte>, k: nat, sampleRate: nat)
    requires 36 <= |w| && w[12..36] == FmtChunk(k, sampleRate)
    ensures ReadU32(w, 16) == 16 && ReadU16(w, 20) == 1
    ensures ReadU16(w, 22) == k % 0x1_0000 && ReadU32(w, 24) == sampleRate % 0x1_0000_0000
  {
    var fmt := FmtChunk(k, sampleRate);
    FmtChunkLayout(k, sampleRate);
    assert ReadU32(w, 16) == 16 by {
      SubSlice(w, 12, fmt, 4, 8);
      ReadU32Field(w, 16, 16);
    }
    assert ReadU16(w, 20) == 1 by {
      SubSlice(w, 12, fmt, 8, 10);
      ReadU16Field(w, 20, 1);
    }
    assert ReadU16(w, 22) == k % 0x1_0000 by {
      SubSlice(w, 12, fmt, 10, 12);
      ReadU16Field(w, 22, k);
    }
    SubSlice(w, 12, fmt, 12, 16);
    ReadU32Field(w, 24, sampleRate);
  }

  /** The byte rate, block alignment and sample width of the fmt chunk at offset 12. */
  lemma FmtFieldsHigh(w: seq<Byte>, k: nat, sampleRate: nat)
    requires 36 <= |w| && w[12..36] == FmtChunk(k, sampleRate)
    ensures ReadU32(w, 28) == (sampleRate * (k * 2)) % 0x1_0000_0000
    ensures ReadU16(w, 32) == (k * 2) % 0x1_0000 && ReadU16(w, 34) == 16
  {
    var fmt := FmtChunk(k, sampleRate);
    FmtChunkLayout(k, sampleRate);
    assert ReadU32(w, 28) == (sampleRate * (k * 2)) % 0x1_0000_0000 by {
      SubSlice(w, 12, fmt, 16, 20);
      ReadU32Field(w, 28, sampleRate * (k * 2));
    }
    assert ReadU16(w, 32) == (k * 2) % 0x1_0000 by {
      SubSlice(w, 12, fmt, 20, 22);
      ReadU16Field(w, 32, k * 2);
    }
    SubSlice(w, 12, fmt, 22, 24);
    ReadU16Field(w, 34, 16);
  }

  /**
   * Every header field of the file reads back as the value the encoder
   * computes: the chunk tags, the RIFF size (file size minus 8), fmt size 16,
   * PCM format 1, the channel count, the sample rate, the byte rate
   * (rate * channels * 2), the block alignment (channels * 2), 16 bits per
   * sample and the data size (file size minus 44); fields wrap as `DataView`
   * stores them.
   */
  lemma WavHeaderFields(p: Pcm)
    requires p.Valid()
    ensures var w := WavBytes(p);
      && |w| >= HeaderSize
      && w[0..4] == Ascii("RIFF")
      && ReadU32(w, 4) == (|w| - 8) % 0x1_0000_0000
      && w[8..12] == Ascii("WAVE")
      && w[12..16] == Ascii("fmt ")
      && ReadU32(w, 16) == 16
      && ReadU16(w, 20) == 1
      && ReadU16(w, 22) == p.NumberOfChannels() % 0x1_0000
      && ReadU32(w, 24) == p.sampleRate % 0x1_0000_0000
      && ReadU32(w, 28) == (p.sampleRate * (p.NumberOfChannels() * 2)) % 0x1_0000_0000
      && ReadU16(w, 32) == (p.NumberOfChannels() * 2) % 0x1_0000
      && ReadU16(w, 34) == 16
      && w[36..40] == Ascii("data")
      && ReadU32(w, 40) == (|w| - HeaderSize) % 0x1_0000_0000
  {
    var w := WavBytes(p);
    var k := p.NumberOfChannels();
    WavLength(p);
    MulAssoc(p.length, k);
    assert w[..HeaderSize] == Header(k, p.sampleRate, p.length);
    HeaderSizeFields(w, k, p.sampleRate, p.length);
    HeaderFormatFields(w, k, p.sampleRate, p.length);
  }

  /** Every stored value is a 16-bit signed integer; out-of-range samples saturate. */
  lemma Pcm16Range(sample: real)
    ensures -0x8000 <= Pcm16(sample) <= 0x7FFF
    ensures sample >= 1.0 ==> Pcm16(sample) == 0x7FFF
    ensures sample <= -1.0 ==> Pcm16(sample) == -0x8000
  {
  }

  /**
   * The quantisation truncates toward zero: within one step below the scaled
   * value for non-negative samples, one step above it for negative ones.
   */
  lemma Pcm16Quantisation(sample: real)
    requires -1.0 <= sample <= 1.0
    ensures 0.0 <= sample ==> sample * 32767.0 - 1.0 < Pcm16(sample) as real <= sample * 32767.0
    ensures sample < 0.0 ==> sample * 32768.0 <= Pcm16(sample) as real < sample * 32768.0 + 1.0
  {
  }

  /** A larger sample never encodes to a smaller value. */
  lemma Pcm16Monotonic(a: real, b: real)
    requires a <= b
    ensures Pcm16(a) <= Pcm16(b)
  {
    var x, y := Clamp(a, -1.0, 1.0), Clamp(b, -1.0, 1.0);
    assert x <= y;
    if x < 0.0 && y < 0.0 {
      assert -(y * 32768.0) <= -(x * 32768.0);
    } else if 0.0 <= x {
      assert x * 32767.0 <= y * 32767.0;
    }
  }

  /**
   * Channel `c` of frame `i` sits at byte `44 + 2 * (i * channels + c)` and
   * reads back as its 16-bit value.
   */
  lemma WavSampleAt(p: Pcm, i: nat, c: nat)
    requires p.Valid() && i < p.length && c < p.NumberOfChannels()
    ensures HeaderSize + 2 * (i * p.NumberOfChannels() + c) + 2 <= |WavBytes(p)|
    ensures ReadI16(WavBytes(p), HeaderSize + 2 * (i * p.NumberOfChannels() + c)) == Pcm16(p.channels[c][i])
  {
    var k := i * p.NumberOfChannels() + c;
    var words := Interleaved(p, p.length);
    InterleavedAt(p, p.length, i, c);
    Pcm16Range(p.channels[c][i]);
    WordAt(Header(p.NumberOfChannels(), p.sampleRate, p.length), words, k);
  }

  /** Value `k` of the data section reads back from bytes `2k` and `2k + 1` after the header. */
  lemma WordAt(header: seq<Byte>, words: seq<int>, k: nat)
    requires |header| == HeaderSize && k < |words| && -0x8000 <= words[k] < 0x8000
    ensures ReadI16(header + LeWords(words), HeaderSize + 2 * k) == words[k]
  {
    var w := header + LeWords(words);
    assert w[HeaderSize + 2 * k] == LeWords(words)[2 * k] == U16Le(words[k])[0];
    assert w[HeaderSize + 2 * k + 1] == LeWords(words)[2 * k + 1] == U16Le(words[k])[1];
    I16RoundTrip(words[k]);
  }

  // ---------------------------------------------------------------------
  // The encoder as the code runs it.

  /** Writes `bytes` at `offset`, leaving the bytes before `offset` as they were. */
  method SetBytes(view: array<Byte>, offset: nat, bytes: seq<Byte>)
    requires offset + |bytes| <= view.Length
    modifies view
    ensures view[..offset + |bytes|] == old(view[..offset]) + bytes
  {
    for k := 0 to |bytes|
      invariant view[..offset + k] == old(view[..offset]) + bytes[..k]
    {
      view[offset + k] := bytes[k];
      assert view[..offset + k + 1] == view[..offset + k] + [bytes[k]];
    }
  }

  /** The header writes of `audioBufferToWav`, in the order the code makes them. */
  method WriteHeader(view: array<Byte>, numberOfChannels: nat, sampleRate: nat, length: nat)
    requires HeaderSize <= view.Length
    modifies view
    ensures view[..HeaderSize] == Header(numberOfChannels, sampleRate, length)
  {
    var blockAlign := numberOfChannels * BytesPerSample;
    var dataSize := length * blockAlign;
    var bufferSize := HeaderSize + dataSize;
    WriteRiffChunk(view, bufferSize);
    WriteFmtChunk(view, numberOfChannels, sampleRate);
    ghost var riffFmt := view[..36];
    SetBytes(view, 36, Ascii("data"));
    SetBytes(view, 40, U32Le(dataSize));
    assert view[..44] == riffFmt + DataChunkHeader(dataSize);
  }

  method WriteRiffChunk(view: array<Byte>, bufferSize: int)
    requires HeaderSize <= view.Length
    modifies view
    ensures view[..12] == RiffChunk(bufferSize)
  {
    SetBytes(view, 0, Ascii("RIFF"));
    SetBytes(view, 4, U32Le(bufferSize - 8));
    SetBytes(view, 8, Ascii("WAVE"));
  }

  method WriteFmtChunk(view: array<Byte>, numberOfChannels: nat, sampleRate: nat)
    requires HeaderSize <= view.Length
    modifies view
    ensures view[..36] == old(view[..12]) + FmtChunk(numberOfChannels, sampleRate)
  {
    var blockAlign := numberOfChannels * BytesPerSample;
    var byteRate := sampleRate * blockAlign;
    ghost var riff := view[..12];
    SetBytes(view, 12, Ascii("fmt "));
    ghost var h := Ascii("fmt ");
    SetBytes(view, 16, U32Le(16));
    h := h + U32Le(16);
    assert view[..20] == riff + h;
    SetBytes(view, 20, U16Le(1));
    h := h + U16Le(1);
    assert view[..22] == riff + h;
    SetBytes(view, 22, U16Le(numberOfChannels));
    h := h + U16Le(numberOfChannels);
    assert view[..24] == riff + h;
    SetBytes(view, 24, U32Le(sampleRate));
    h := h + U32Le(sampleRate);
    assert view[..28] == riff + h;
    SetBytes(view, 28, U32Le(byteRate));
    h := h + U32Le(byteRate);
    assert view[..32] == riff + h;
    SetBytes(view, 32, U16Le(blockAlign));
    h := h + U16Le(blockAlign);
    assert view[..34] == riff + h;
    SetBytes(view, 34, U16Le(16));
    h := h + U16Le(16);
    assert view[..36] == riff + h;
  }

  /**
   * The inner loop of the encoder: frame `i` written channel by channel at
   * `offset`, each sample clamped, scaled and truncated.
   */
  method WriteFrame(view: array<Byte>, buffer: AudioBuffer, i: nat, offset: nat,
                    ghost header: seq<Byte>, ghost done: seq<int>) returns (next: nat)
    requires i < buffer.Length()
    requires offset + 2 * buffer.NumberOfChannels() <= view.Length
    requires view[..offset] == header + LeWords(done)
    modifies view
    ensures next == offset + 2 * buffer.NumberOfChannels()
    ensures view[..next] == header + LeWords(done + FrameWords(buffer.Value(), i))
  {
    ghost var frame := FrameWords(buffer.Value(), i);
    ghost var written := done;
    next := offset;
    for channel := 0 to buffer.NumberOfChannels()
      invariant written == done + frame[..channel]
      invariant next == offset + 2 * channel
      invariant view[..next] == header + LeWords(written)
    {
      var sample := Clamp(buffer.data[channel, i], -1.0, 1.0);
      var value := if sample < 0.0 then Trunc(sample * 32768.0) else Trunc(sample * 32767.0);
      assert value == frame[channel];
      SetBytes(view, next, U16Le(value));
      AppendWord(header, written, value);
      assert frame[..channel + 1] == frame[..channel] + [value];
      written := written + [value];
      next := next + 2;
    }
    assert frame[..buffer.NumberOfChannels()] == frame;
  }

  method AudioBufferToWav(buffer: AudioBuffer) returns (view: array<Byte>)
    ensures fresh(view) && view[..] == WavBytes(buffer.Value())
  {
    ghost var p := buffer.Value();
    var length := buffer.Length();
    var numberOfChannels := buffer.NumberOfChannels();
    var sampleRate := buffer.sampleRate;
    var blockAlign := numberOfChannels * BytesPerSample;
    var dataSize := length * blockAlign;
    var bufferSize := HeaderSize + dataSize;
    view := new Byte[bufferSize];
    WriteHeader(view, numberOfChannels, sampleRate, length);
    ghost var header := Header(numberOfChannels, sampleRate, length);
    MulTwo(length, numberOfChannels);

    var offset := HeaderSize;
    ghost var done: seq<int> := [];
    for i := 0 to length
      invariant done == Interleaved(p, i) && |done| == i * numberOfChannels
      invariant offset == HeaderSize + 2 * |done| <= view.Length
      invariant view[..offset] == header + LeWords(done)
    {
      InterleavedLength(p, i + 1);
      MulMono(i + 1, length, numberOfChannels);
      offset := WriteFrame(view, buffer, i, offset, header, done);
      done := done + FrameWords(p, i);
    }
    assert view[..] == view[..offset];
  }
}

=== FILE: Wrappers.dfy ===
/** Option and Result values used where the modelled code returns nothing or throws. */
module Wrappers {

  datatype Option<+T> = None | Some(value: T)

  datatype Result<+T, +E> = Ok(value: T) | Err(error: E)
}
